=== FILE: README.md ===
# Wumpus World logical agent — a Dafny model of its core

This project models the core of a Wumpus World player in Dafny and proves properties of the
model. The player is a game board plus an agent that reasons about the board through a
knowledge base. The model covers these parts:

- **The belief cell** (`Cells`, cell.py). Each attribute of a room takes one of four values:
  TRUE, FALSE, MAYBE or UNKNOWN. The wumpus, pit, safe, out-of-bounds and glitter setters
  each write more than one field.
- **The belief grid** (`WorldViews`, `SetItemRules`, `Bounds`, world_view.py). This is a 22 x 22
  list indexed at `x + 11, y + 11`, using Python's list-index rule, so negative indices wrap.
  - `set_item` writes one attribute. It then runs the inference passes over the four
    neighbours: the empty-room pass, the stench/breeze pass with its sole-candidate promotion,
    and the no-stench pass.
  - `set_bound` blanks a rectangle after a bump.
- **The knowledge base** (`KnowledgeBases`, `Queries`, knowledge_base.py). It covers `tell`,
  `ask`, the `exit` attribute and the three aggregate queries.
- **The agent's bookkeeping** (`Agents`, agent.py). It covers the direction to an adjacent
  room, the backtracking stack, the adjacent-room filter and the safe, wumpus and pit room
  selections.
- **The percept record** (`Sensors`, percepts.py).
- **The coordinate frames** (`Coords`, coord.py).
- **The game board** (`Boards`, board_model.py). This is `act` with its MOVE, SHOOT and CLIMB
  branches, the arrow's flight, the removal of the stench around a killed wumpus, the score
  constants and the top-left position.
- **The map text parser** (`Tiles`, board_data.py). This covers the tile letters and
  `read_board_data` over the lines of a file.
- **The map generator's reachability check** (`MapGenerator`, map_generator.py). This is the
  breadth-first search in `_check_have_path_to_exit`.

Exceptions are values. An operation that mutates state returns `Step(state, result)`, where
`result` is `Ok(value)` or `Err(error)`. The state is the one left behind when the exception
is raised, because Python does not undo earlier writes. Python's list indexing is written out
explicitly (`Basics.PyIndex`), and so are `list.remove` (first occurrence) and
`list.insert(-1, x)` (before the last element).

Several behaviours of the code are easy to misread. The model follows the code in each case:

- After every SHOOT action, hit or miss, and after every scream, `tell` marks one neighbour
  safe. For UP and DOWN that is the room the arrow flew into. For LEFT and RIGHT it is the
  room on the opposite side: shooting LEFT clears `(x + 1, y)`, not the room the arrow flew
  into.
- `tell` writes the stench, breeze and glitter fields directly. It does not run the
  neighbour-inference passes of `set_item`.
- A bump always makes `tell` raise. `set_bound` returns `None`, and `res.update(None)` is a
  TypeError, so the percepts of that call are never recorded.
- `set_bound` sweeps the first list index for UP and DOWN and the second one for LEFT and
  RIGHT. It also stops one short on the UP and LEFT sides.
- `exit` raises AttributeError until both the left and the bottom bounds are known, because
  the attribute it reads is only created by those bumps.
- The queries do not exclude out-of-bounds rooms. Blanked rooms are safe, so they are
  reported as safe.
- The agent has no exploration state machine, visited set or hunting mode.

Three defects are corrected in the rest of the model and recorded under "## Findings". The
defects listed above are modelled as written.

## Model

| member | source | states |
|---|---|---|
| Cells.SetWumpus | lib/knowledge_base/cell.py:79-84 | A confirmed wumpus rules out a pit and gold in the room. Any other value leaves them alone. The percepts are kept, and the no-two-hazards invariant is preserved. |
| Cells.SetPit | lib/knowledge_base/cell.py:90-95 | A confirmed pit rules out a wumpus and gold in the room. Any other value leaves them alone. The percepts are kept, and the invariant is preserved. |
| Cells.SetSafe | lib/knowledge_base/cell.py:56-60 | Assigning true makes the room safe: no wumpus and no pit. Gold and percepts are unchanged. Assigning false changes nothing. |
| Cells.SetOob | lib/knowledge_base/cell.py:66-73 | An out-of-bounds room is safe, empty and without gold. Assigning false changes nothing. |
| Cells.SetGlitter | lib/knowledge_base/cell.py:97-106 | Glitter reads back TRUE only when TRUE was written, and FALSE for every other value. Hazards and percepts are untouched. |
| Cells.SetAttr | lib/knowledge_base/cell.py:28-106 | Assigning an attribute by name stores plain fields as given. The safe and out-of-bounds setters always fire, because every CellValue is truthy. The invariant is preserved. |
| Cells.FreshKnowsNothing | lib/knowledge_base/cell.py:28-33 | A new cell reads UNKNOWN in every field. It is neither safe nor empty. |
| Cells.SetThenRead | lib/knowledge_base/cell.py:28-33 | Writing a stored attribute and reading it back returns the value written. |
| Cells.OobAbsorbs | lib/knowledge_base/cell.py:66-73 | Marking a room out of bounds is idempotent and overrides any earlier single write. |
| WorldViews.NewWorld | lib/knowledge_base/world_view.py:11-12 | A new grid holds a fresh cell in every one of its 22 x 22 slots. |
| WorldViews.Get | lib/knowledge_base/world_view.py:22-24 | `world[(x, y)]` succeeds exactly when both shifted indices are valid Python indices, negative wrap included. It then returns that slot. |
| WorldViews.CanonicalSlots | lib/knowledge_base/world_view.py:22-24 | For rooms in -11..10 the shift `+11` is one-to-one, so distinct rooms never share a cell. |
| WorldViews.PassFails | lib/knowledge_base/world_view.py:34-38 | A neighbour pass completes exactly when all four neighbours can be indexed. Otherwise it raises IndexError. |
| WorldViews.PassRecords | lib/knowledge_base/world_view.py:34-38 | A completed pass reports the keys it was given plus exactly the neighbours its rule changed or touched. |
| WorldViews.PassCells | lib/knowledge_base/world_view.py:34-38 | After a pass, each neighbour holds its old cell with the rule applied. |
| WorldViews.PassFrame | lib/knowledge_base/world_view.py:34-38 | A pass writes no slot other than the four neighbours. |
| SetItemRules.SetItemFails | lib/knowledge_base/world_view.py:26-129 | `set_item` raises TypeError for a value that is not a CellValue. It raises IndexError when the room, or a neighbour some pass needs, lies outside the list. Otherwise it succeeds. |
| SetItemRules.QuietWrite | lib/knowledge_base/world_view.py:31-33 | A write that leaves the room non-empty and fires no rule changes only that room and reports nothing. |
| SetItemRules.HintRule | lib/knowledge_base/world_view.py:39-126 | After a stench (or breeze) TRUE, the room records it. Every UNKNOWN or MAYBE neighbour becomes a MAYBE wumpus (or pit), or a TRUE one when three neighbours were ruled out, through the hazard's setter. Every other neighbour is left exactly as it was. |
| SetItemRules.SoleCandidate | lib/knowledge_base/world_view.py:63-126 | With three neighbours ruled out, exactly one candidate is left. The hint confirms the hazard there and rules out the other hazard and gold in that room. |
| SetItemRules.NoStenchRule | lib/knowledge_base/world_view.py:33-94 | After a stench FALSE, the room records it. Every neighbour whose wumpus was UNKNOWN or MAYBE becomes FALSE, and a TRUE wumpus survives unless the room is now empty. Each neighbour keeps its gold and percepts. It keeps its pit too, unless the room is now empty, in which case the neighbour is marked safe. |
| SetItemRules.EmptyRoomRule | lib/knowledge_base/world_view.py:33-38 | A write that leaves the room without stench and breeze makes all four neighbours safe and reports all four. |
| SetItemRules.SetItemFrame | lib/knowledge_base/world_view.py:26-129 | `set_item` changes only the room itself and its four neighbours. It never changes a neighbour's stench or breeze, and it reports only neighbours. |
| SetItemRules.SetItemKeepsConsistent | lib/knowledge_base/world_view.py:26-129 | No call of `set_item`, even one that raises halfway, leaves a cell confirmed to hold both a wumpus and a pit. |
| Bounds.SetBoundLoop | lib/knowledge_base/world_view.py:131-148 | The nested loops leave exactly the grid the sweep model describes. They raise exactly when the model says so. |
| Bounds.SetBoundRaises | lib/knowledge_base/world_view.py:131-148 | `set_bound` raises IndexError exactly for UP or LEFT with a value of 13 or more, and for DOWN or RIGHT with -35 or less. |
| Bounds.SetBoundRegion | lib/knowledge_base/world_view.py:131-148 | For a value in -12..12, `set_bound` blanks exactly the rooms of its rectangle, on the axes as written. Every other room is unchanged. |
| Bounds.SetBoundIdempotent | lib/knowledge_base/world_view.py:131-148 | Repeating the same bound changes nothing more. |
| Sensors.Get | lib/percepts.py:5-16 | Reading a percept by name returns its flag. Any other name raises "Unknown percept". |
| Sensors.Set | lib/percepts.py:18-30 | Writing a percept by name changes that flag alone. Any other name raises. |
| Sensors.NamesSelect | lib/percepts.py:5-30 | Every flag's name selects that flag. |
| Sensors.NothingSensed | lib/percepts.py:1-3 | A new percept record reads false for every name. |
| KnowledgeBases.NewKB | lib/knowledge_base/knowledge_base.py:11-17 | A new knowledge base has no bounds and a fresh grid. |
| KnowledgeBases.ShotTarget | lib/knowledge_base/knowledge_base.py:93-106 | The room cleared after a shot is one of the four neighbours. |
| KnowledgeBases.ShotTargetIsNeighbour | lib/knowledge_base/knowledge_base.py:94-106 | UP and DOWN clear the room ahead. LEFT clears `(x + 1, y)` and RIGHT clears `(x - 1, y)`. |
| KnowledgeBases.Observe | lib/knowledge_base/knowledge_base.py:107-118 | The room records stench, breeze and glitter as TRUE or FALSE from the percepts. Its hazards are unchanged. |
| KnowledgeBases.TellBump | lib/knowledge_base/knowledge_base.py:72-90 | A bump without an action raises. With an action, the bound in that direction is recorded, the others are kept, the rectangle is blanked, and the call then raises: TypeError, or IndexError from `set_bound`. |
| KnowledgeBases.Tell | lib/knowledge_base/knowledge_base.py:64-120 | A bump always raises. Without one, the bounds are kept. A completed call reports the room itself and possibly one neighbour. It completes exactly when there is no bump and the room, and the shot room if any, can be indexed. |
| KnowledgeBases.TellThenAsk | lib/knowledge_base/knowledge_base.py:107-123 | After a completed `tell`, asking for stench, breeze and glitter returns what was perceived. |
| KnowledgeBases.TellQuiet | lib/knowledge_base/knowledge_base.py:91-120 | Without a bump or a shot, `tell` changes only the room itself and reports only it. |
| KnowledgeBases.TellShot | lib/knowledge_base/knowledge_base.py:93-120 | After a shot or a scream, the shot room becomes safe through the `is_safe` setter, keeping its gold and percepts. Both rooms are reported. Nothing else changes. |
| KnowledgeBases.Ask | lib/knowledge_base/knowledge_base.py:122-123 | `ask` succeeds exactly when the room can be indexed. Otherwise it raises IndexError. |
| KnowledgeBases.Exit | lib/knowledge_base/knowledge_base.py:21-23 | `exit` is `(left, bottom)` once both are known. Otherwise it raises AttributeError. |
| KnowledgeBases.ExitAfterBumps | lib/knowledge_base/knowledge_base.py:21-89 | After bumps to the left and downwards, `exit` is the pair of recorded bounds, even though both `tell` calls raised. |
| KnowledgeBases.NoExitYet | lib/knowledge_base/knowledge_base.py:16-23 | A new knowledge base has no exit. |
| Queries.SafeCellsExact | lib/knowledge_base/knowledge_base.py:24-30 | `safe_cells` lists exactly the rooms in the window whose cell reads safe. They come in strictly increasing scan order (row by row), so no room is listed twice. |
| Queries.HazardCellsExact | lib/knowledge_base/knowledge_base.py:31-60 | `wumpus_cells` and `pit_cells` list exactly the rooms whose hazard is TRUE or MAYBE, each paired with that value. |
| Queries.ScanAsWrittenRaises | lib/knowledge_base/knowledge_base.py:26-28 | The scan as written raises IndexError before it finishes, whatever the grid holds. |
| Queries.InsertBeforeLastCounts | lib/knowledge_base/knowledge_base.py:41-44 | `insert(-1, x)` adds exactly one element, `x`. |
| Agents.NewAgent | lib/agent/agent.py:25-32 | A new agent's stack holds only the entrance (0, 0) and it has no gold. |
| Agents.IdentifyDirection | lib/agent/agent.py:46-59 | A direction is found exactly for the four adjacent rooms, and moving that way reaches the room. Any other room raises. |
| Agents.IdentifyNext | lib/agent/agent.py:46-59 | The direction to the room one step in direction d is d. |
| Agents.Backtrack | lib/agent/agent.py:115-120 | With two or more rooms on the stack, the top is popped and the new top is returned. Otherwise nothing changes and None is returned. |
| Agents.LatestRoom | lib/agent/agent.py:122-125 | The top of the stack, or None when it is empty. |
| Agents.AfterAction | lib/agent/agent.py:183-188 | After an action the target room is on top, replacing the old top if they were equal. The rest of the stack is kept, and gold is remembered once glittered. An empty stack raises. |
| Agents.AdjacentRooms | lib/agent/agent.py:127-146 | Each neighbour is offered exactly when no known bound excludes it. The room under the exit is withheld until gold is found. |
| Agents.SafeRoomsExact | lib/agent/agent.py:61-69 | The safe rooms offered are exactly the safe cells that are adjacent. Like the full list, they keep the knowledge base's scan order, so none is offered twice. |
| Agents.KeepAdjacentOrdered | lib/agent/agent.py:68-69 | `filter` keeps the order of the list it filters: rooms in scan order stay in scan order. |
| Agents.DictPut | lib/agent/agent.py:103-106 | A dictionary assignment replaces the key's entry and keeps the keys distinct. |
| Agents.ConvertMembers | lib/agent/agent.py:91-107 | The converted dictionary holds exactly the adjacent entries of the list. |
| Agents.HazardRoomsExact | lib/agent/agent.py:71-89 | With a target of TRUE or MAYBE, the rooms returned are exactly the adjacent rooms whose hazard equals the target. |
| Agents.HazardCellsSingleValued | lib/knowledge_base/knowledge_base.py:31-60 | The hazard queries never list one room with two values. |
| Coords.ToDownward | lib/coord.py:10-11 | Converting to top-down and back returns the original point. The x coordinate is kept, and the row is on the board exactly when it was before. |
| Coords.ToCartesian | lib/coord.py:29-30 | The x coordinate is kept, and the row is on the board exactly when it was before. |
| Coords.DownwardRoundTrip | lib/coord.py:10-30 | Converting to Cartesian and back returns the original top-down point. |
| Coords.Item | lib/coord.py:17-40 | Index 0 is x and index 1 is y. Any other index gives None. |
| Tiles.TileOf | lib/game/board_data.py:45-56 | A character names a tile exactly when its upper-case form is that tile's letter. |
| Tiles.TilesOfLetters | lib/game/board_data.py:44-56 | A field's tiles are exactly those named by some character in it. |
| Tiles.SplitJoin | lib/game/board_data.py:41-44 | Splitting a row on '.' and joining the fields again gives back the row. |
| Tiles.IntOfDecimal | lib/game/board_data.py:39 | The height line reads back the number written, in all four forms: with or without a leading minus sign, each with or without the trailing line break. |
| Tiles.ReadBoardData | lib/game/board_data.py:36-57 | The map has as many rows as the height says and as many rooms per row as the first row has fields. A bad height is a ValueError. A letter outside that rectangle, or a missing first row, is an IndexError. |
| Tiles.ParseWritten | lib/game/board_data.py:36-57 | Writing any rectangular map of at least one room as text and reading it back gives the same height, width and rooms, each with its tiles in order. |
| Tiles.SingleLetter | lib/game/board_data.py:36-57 | A one-room map whose room holds a single letter, in either case, parses to that tile alone. |
| MapGenerator.Expand | lib/game/map_generator.py:22-29 | The rooms queued from a room are exactly its pit-free orthogonal neighbours on the map. |
| MapGenerator.HasPathToExit | lib/game/map_generator.py:10-30 | The search answers true exactly when a pit-free path leads from the start to the exit room at the bottom-left. |
| Boards.TlAgentPosition | lib/game/board_model.py:183-190 | The top-left position converts back to the agent's position. On a well-formed board it indexes the agent's room. |
| Boards.Visit | lib/game/board_model.py:110-134 | Entering a room scores 100 per gold and -10000 per pit or wumpus. It ends the game exactly on a pit or wumpus, and perceives stench, breeze and glitter from the tiles present. |
| Boards.Move | lib/game/board_model.py:87-139 | MOVE facing DOWN at (0, 0) climbs out. Moving off the board sets only the bump percept. Otherwise the agent moves one step and pays 10 plus what the room scores. The first gold there is removed, and no other room changes. |
| Boards.Ray | lib/game/board_model.py:194-227 | The arrow passes through exactly the rooms on the board that lie ahead of the agent. |
| Boards.Target | lib/game/board_model.py:192-228 | The arrow hits the nearest room ahead that holds a wumpus. It misses exactly when no room ahead holds one. |
| Boards.RemoveStenchAround | lib/game/board_model.py:155-175 | One stench is removed from each of the four neighbours of the killed wumpus that has one. Every other room is unchanged. |
| Boards.ShootArrow | lib/game/board_model.py:192-228 | A shot costs 100 and hits exactly when a wumpus is ahead. A hit removes exactly one wumpus, at the target room and nowhere else. A miss changes no room. |
| Boards.ShootKillsOne | lib/game/board_model.py:192-228 | The first wumpus met on the ray is the target, and only its count drops. |
| Boards.Act | lib/game/board_model.py:77-153 | An ended game raises. SHOOT costs 100 and screams exactly on a hit. CLIMB succeeds only at (0, 0), scoring 10 and ending the game. An error leaves the board unchanged, and a success returns the current percepts. |
| BoardFindings.ShotStopsShort | lib/game/board_model.py:204-213 | On a two-row board with a wumpus directly below, the arrow as written misses and the corrected one kills it. |
| BoardFindings.RayAsWrittenDropsEdge | lib/game/board_model.py:194-227 | On every board, the arrow as written passes the same rooms as the corrected one. The only exception: shooting DOWN or LEFT, it never reaches the last room before the edge. |
| BoardFindings.StenchWraps | lib/game/board_model.py:155-160 | Next to the top row, the removal as written takes the stench off the bottom row through index -1, and the corrected one keeps it. |

## Left out

- File I/O: `read_board_data` is modelled on the list of lines a file would give.
- Printing and the `__str__`/`__repr__` renderings are left out.
- Random map generation is left out: `_put_tiles`, `generate_map` and `put_enviroment`. So is
  the agent's random choice in `random_select_room`, `dangerously_chose` and `decide`. Only the
  deterministic reachability check is modelled.
- The game loop, the `Game` class, the command-line entry point, the search algorithms and
  `BoardModelWithKB` are out of scope.
- The `BoardModel` constructor and `_update_percepts` are left out. The constructor reads an
  `initial_agent_pos` that `BoardData` does not define. The model starts from any well-formed
  `Boards.Board` instead.
- The `revealed` matrix only serves the display and is left out.
- `change_agent_direction` is not a separate operation: `facing` is a field of the board.
- board.py repeats the move enums and the board logic. One `Direction` and one `Action` are
  modelled, with the board_model.py logic.
- Agents.IdentifyDirection, Agents.AdjacentRooms and Agents.AfterAction model the
  bookkeeping the agent evidently intends, with the agent position and the known bounds given
  as parameters. As written, the code never reaches that bookkeeping:
  - `known_bounds` and `identify_direction_to_modify` are not defined anywhere, yet agent.py
    calls them at lines 110, 132, 142, 179 and 182.
  - `virtual_agent_position` (lib/game/board_with_kb.py:22-29) reads `self.agent`, while
    `BoardModel` only sets `_agent` (lib/game/board_model.py:45). It also returns a tuple, and
    agent.py:48-49 and 129-130 read `.x` and `.y` from it.
  - So `identify_direction` and `_adjacent_rooms` raise AttributeError. `take_action` raises
    at line 179, and its `except` clause (agent.py:192-194) returns None with the stack
    untouched.
  - `exit_room` is left out, because both of its lines sit on `known_bounds`.
- Agents.AfterAction: only the stack update and the glitter flag of `take_action` are
  modelled. The board call, its exception handling and the `_is_alive` flag are left out.
- Agents.AfterAction: `_find_gold` is modelled as a single gold flag. The source reads an
  unset `_find_gold` in `_adjacent_rooms`, which would raise AttributeError before any glitter;
  this is not modelled.
- Cells.SetAttr: only the public attribute names are modelled. Writing `is_empty` raises
  AttributeError in Python, because that property has no setter (cell.py:41-47). Writing
  `_is_wumpus` or `_is_pit` directly stores the value without the coupling of the setters
  (cell.py:79-95). Any other name just adds an unrelated attribute. None of these is modelled.
- SetItemRules.SetItemFails: the AttributeError of `set_item(..., "is_empty")` is not
  modelled, since `is_empty` is not among the modelled attribute names.
- SetItemRules.SetItemKeepsConsistent: holds for the modelled attribute names only. A direct
  write of `_is_wumpus` or `_is_pit` could store TRUE next to a TRUE of the other hazard.
- KnowledgeBases.Ask: only the attributes that hold a CellValue are modelled. `is_safe`,
  `is_empty` and `is_oob` return booleans or None.
- The dispatch of the `__getattribute__` override is not modelled. The `exit` and query
  attributes are separate functions.
- Tiles.IntOf: the ASCII whitespace that `int()` strips is modelled, including the
  separators `\x1c` to `\x1f`. Non-ASCII whitespace, underscores between digits and
  non-ASCII digits are not accepted.
- Tiles.TileOf: `str.upper` is modelled for ASCII letters only.
- MapGenerator.HasPathToExit: requires a start room on the map. A negative start would wrap
  around in Python, and an overly large one would raise IndexError.
- Boards.Move: requires a well-formed board that is not over (a rectangle of rooms with the
  agent on it). `act` raises for an ended game before reaching the move.
- Boards.Act: the percept record is updated by field rather than through `Sensors.Set`.

## Findings

| source | as written | input that shows it | evidently intended | confidence | as-written member | corrected member |
|---|---|---|---|---|---|---|
| lib/knowledge_base/knowledge_base.py:26-28 | The query loops read `self.world[(i, j)]` for i, j in 0..21. Since `__getitem__` adds 11 again, the twelfth read is `cells[11][22]`, and every query raises IndexError. | Any knowledge base, querying `safe_cells`. | Read `cells[i][j]` and report room `(i - 11, j - 11)`. | high, not executed | Queries.ScanAsWrittenRaises | Queries.SafeCellsExact |
| lib/game/board_model.py:205 | Shooting DOWN iterates `range(self._agent.y - 1, 0, -1)`, which stops before row 0. The LEFT case (line 216) stops before column 0 in the same way. | A 2 x 1 board, agent at (0, 1) facing DOWN, wumpus at (0, 0): the arrow misses. | The range ends at -1, as the duplicate logic in lib/game/board.py does, so that the edge row and column can be hit. | high, not executed | BoardFindings.ShotStopsShort, BoardFindings.RayAsWrittenDropsEdge | Boards.ShootArrow |
| lib/game/board_model.py:155-175 | `_remove_stench_around` relies on IndexError to skip neighbours off the board. Index -1 does not raise in Python, so a wumpus killed in the top row or the left column takes a stench off the opposite edge. | Rooms `[[], [S], [S]]` in one column, wumpus killed at row 0: the stench in row 2 is removed. | Only the rooms orthogonally adjacent to the killed wumpus lose a stench. | high, not executed | BoardFindings.StenchWraps | Boards.RemoveStenchAround |

=== FILE: actions.dfy ===
/** The move vocabulary shared by the game board, the knowledge base and the agent
    (lib/game/board_model.py). */
module Actions {
  import opened Basics

  datatype Direction = Up | Down | Left | Right

  datatype Action = Move | Shoot | Climb

  /** The room one step away in direction `d`, with y growing upwards. */
  function Next(p: Coord, d: Direction): Coord {
    match d
    case Up => (p.0, p.1 + 1)
    case Down => (p.0, p.1 - 1)
    case Left => (p.0 - 1, p.1)
    case Right => (p.0 + 1, p.1)
  }
}

=== FILE: agent.dfy ===
/** The deterministic helpers of the agent (lib/agent/agent.py): the stack of visited rooms,
    direction identification, bound-aware adjacency, and the filters that restrict the
    knowledge base's answers to adjacent rooms. The agent's position and the known bounds
    are passed in explicitly. */
module Agents {
  import opened Basics
  import opened Cells
  import opened Actions
  import opened WorldViews
  import opened KnowledgeBases
  import opened Queries

  /** The bounds the agent consults, in the order `known_bounds` returns them. */
  datatype Known = Known(top: Option<int>, bottom: Option<int>, left: Option<int>, right: Option<int>)

  /** The agent's own state: the rooms it came through, most recent last, and whether it
      has seen the gold. */
  datatype Agent = Agent(stack: seq<Coord>, gold: bool)

  /** `Agent(board)`: the stack starts at the entrance. */
  function NewAgent(): (a: Agent)
    ensures a.stack == [(0, 0)] && !a.gold
  {
    Agent([(0, 0)], false)
  }

  /** `identify_direction(room)` from position `pos`. */
  function IdentifyDirection(pos: Coord, room: Coord): (r: Result<Direction>)
    ensures r.Ok? <==> room in Neighbours(pos)
    ensures r.Ok? ==> Next(pos, r.value) == room
    ensures r.Err? ==> r.error == NoDirection
  {
    if room == (pos.0, pos.1 + 1) then Ok(Up)
    else if room == (pos.0, pos.1 - 1) then Ok(Down)
    else if room == (pos.0 + 1, pos.1) then Ok(Right)
    else if room == (pos.0 - 1, pos.1) then Ok(Left)
    else Err(NoDirection)
  }

  /** Identifying the room one step away gives back the step taken. */
  lemma IdentifyNext(pos: Coord, d: Direction)
    ensures IdentifyDirection(pos, Next(pos, d)) == Ok(d)
  {
  }

  /** `backtrack()`: with more than one room on the stack, drop the current one and return
      the room before it; otherwise change nothing and return None. */
  function Backtrack(a: Agent): (r: (Agent, Option<Coord>))
    ensures r.1.Some? <==> |a.stack| > 1
    ensures r.1.Some? ==> r.0.stack + [a.stack[|a.stack| - 1]] == a.stack && r.1.value == r.0.stack[|r.0.stack| - 1]
    ensures r.1.None? ==> r.0 == a
    ensures |a.stack| > 0 ==> |r.0.stack| > 0
    ensures r.0.gold == a.gold
  {
    if |a.stack| > 1 then
      var s := a.stack[..|a.stack| - 1];
      (a.(stack := s), Some(s[|s| - 1]))
    else (a, None)
  }

  /** `latest_room()`: the top of the stack, or None when it is empty. */
  function LatestRoom(a: Agent): (r: Option<Coord>)
    ensures r.None? <==> |a.stack| == 0
    ensures r.Some? ==> r.value == a.stack[|a.stack| - 1] && r.value in a.stack
  {
    if |a.stack| == 0 then None else Some(a.stack[|a.stack| - 1])
  }

  /** The stack and gold-flag update at the end of `take_action(action, to_room)`, given the
      percepts the action produced. Comparing with `stack[-1]` raises on an empty stack. */
  function AfterAction(a: Agent, toRoom: Coord, glitter: bool): (r: Result<Agent>)
    ensures r.Ok? <==> |a.stack| > 0
    ensures r.Ok? ==> LatestRoom(r.value) == Some(toRoom)
    ensures r.Ok? ==> |r.value.stack| == if a.stack[|a.stack| - 1] == toRoom then |a.stack| else |a.stack| + 1
    ensures r.Ok? ==> r.value.stack[..|a.stack| - 1] == a.stack[..|a.stack| - 1]
    ensures r.Ok? ==> r.value.gold == (a.gold || glitter)
  {
    if |a.stack| == 0 then Err(IndexError)
    else
      var s := if a.stack[|a.stack| - 1] == toRoom then a.stack[..|a.stack| - 1] else a.stack;
      Ok(Agent(s + [toRoom], a.gold || glitter))
  }

  /** The room the agent keeps away from while the gold is still missing: the one just
      below the exit corner. */
  predicate Withheld(q: Coord, known: Known, gold: bool) {
    known.bottom.Some? && known.left.Some? && q == (known.left.value, known.bottom.value - 1) && !gold
  }

  /** `_adjacent_rooms()` at position `pos`. */
  function AdjacentRooms(pos: Coord, known: Known, gold: bool): (r: set<Coord>)
    ensures r <= Neighbours(pos)
    ensures (pos.0, pos.1 + 1) !in r <==>
      (known.top.Some? && pos.1 >= known.top.value) || Withheld((pos.0, pos.1 + 1), known, gold)
    ensures (pos.0 + 1, pos.1) !in r <==>
      (known.right.Some? && pos.0 >= known.right.value) || Withheld((pos.0 + 1, pos.1), known, gold)
    ensures (pos.0 - 1, pos.1) !in r <==>
      (known.left.Some? && pos.0 <= known.left.value) || Withheld((pos.0 - 1, pos.1), known, gold)
    ensures (pos.0, pos.1 - 1) !in r <==>
      (known.bottom.Some? && pos.1 <= known.bottom.value) || Withheld((pos.0, pos.1 - 1), known, gold)
  {
    var (x, y) := pos;
    var res :=
      (if known.top.None? || y < known.top.value then {(x, y + 1)} else {})
      + (if known.right.None? || x < known.right.value then {(x + 1, y)} else {})
      + (if known.left.None? || x > known.left.value then {(x - 1, y)} else {})
      + (if known.bottom.None? || y > known.bottom.value then {(x, y - 1)} else {});
    if known.bottom.Some? && known.left.Some? then
      var corner := (known.left.value, known.bottom.value - 1);
      if corner in res && !gold then res - {corner} else res
    else res
  }

  /** Keep the rooms of `rooms` that lie in `adjacent`, in their order. */
  function KeepAdjacent(rooms: seq<Coord>, adjacent: set<Coord>): (r: seq<Coord>)
    ensures |r| <= |rooms|
    ensures forall q :: q in r <==> q in rooms && q in adjacent
  {
    if |rooms| == 0 then []
    else
      var rest := KeepAdjacent(rooms[..|rooms| - 1], adjacent);
      var q := rooms[|rooms| - 1];
      assert rooms == rooms[..|rooms| - 1] + [q];
      if q in adjacent then rest + [q] else rest
  }

  /** Filtering keeps the order of the list: rooms in scan order stay in scan order, so no
      room is offered twice. */
  lemma {:induction false} KeepAdjacentOrdered(rooms: seq<Coord>, adjacent: set<Coord>)
    requires InScanOrder(rooms)
    ensures InScanOrder(KeepAdjacent(rooms, adjacent))
  {
    if |rooms| > 0 {
      var init := rooms[..|rooms| - 1];
      var q := rooms[|rooms| - 1];
      assert InScanOrder(init) by {
        forall i, j | 0 <= i < j < |init| ensures ScanIndex(init[i]) < ScanIndex(init[j]) {
          assert init[i] == rooms[i] && init[j] == rooms[j];
        }
      }
      KeepAdjacentOrdered(init, adjacent);
      var rest := KeepAdjacent(init, adjacent);
      forall i | 0 <= i < |rest| ensures ScanIndex(rest[i]) < ScanIndex(q) {
        assert rest[i] in init;
        var k :| 0 <= k < |init| && init[k] == rest[i];
        assert rooms[k] == rest[i];
      }
      var extra := if q in adjacent then [q] else [];
      AppendOrdered(rest, extra, ScanIndex(q));
      assert KeepAdjacent(rooms, adjacent) == rest + extra;
    }
  }

  /** `safe_rooms(find_all)`. */
  function SafeRooms(kb: KB, pos: Coord, known: Known, gold: bool, findAll: bool): seq<Coord> {
    if findAll then SafeCells(kb) else KeepAdjacent(SafeCells(kb), AdjacentRooms(pos, known, gold))
  }

  /** The rooms `safe_rooms()` offers are exactly the adjacent rooms believed safe, in the
      knowledge base's scan order; `safe_rooms(True)` offers every safe room in that order. */
  lemma SafeRoomsExact(kb: KB, pos: Coord, known: Known, gold: bool, q: Coord)
    ensures q in SafeRooms(kb, pos, known, gold, false) <==>
      q in AdjacentRooms(pos, known, gold) && Canonical(q) && IsSafe(At(kb.world, q))
    ensures InScanOrder(SafeRooms(kb, pos, known, gold, false))
    ensures InScanOrder(SafeRooms(kb, pos, known, gold, true))
  {
    SafeCellsExact(kb, q);
    KeepAdjacentOrdered(SafeCells(kb), AdjacentRooms(pos, known, gold));
  }

  /** A dictionary with insertion order kept, as a list of entries with distinct keys. */
  predicate DistinctKeys(d: seq<(Coord, CellValue)>) {
    forall i, j :: 0 <= i < j < |d| ==> d[i].0 != d[j].0
  }

  /** `d[k] = v`: overwrite the entry for `k` in place, or append a new one. */
  function DictPut(d: seq<(Coord, CellValue)>, k: Coord, v: CellValue): (r: seq<(Coord, CellValue)>)
    requires DistinctKeys(d)
    ensures DistinctKeys(r)
    ensures forall q, w :: (q, w) in r <==> (q == k && w == v) || (q != k && (q, w) in d)
  {
    if |d| == 0 then [(k, v)]
    else if d[0].0 == k then
      assert forall q, w :: (q, w) in d[1..] ==> q != k by {
        forall q, w | (q, w) in d[1..] ensures q != k {
          var j :| 0 <= j < |d[1..]| && d[1..][j] == (q, w);
          assert d[j + 1] == (q, w);
        }
      }
      assert forall q, w :: (q, w) in d ==> (q, w) == d[0] || (q, w) in d[1..];
      [(k, v)] + d[1..]
    else
      var rest := DictPut(d[1..], k, v);
      assert forall q, w :: (q, w) in rest ==> q == k || (q, w) in d[1..];
      [d[0]] + rest
  }

  /** `_convert(rooms)`: the entries whose room is adjacent, later entries overwriting
      earlier ones for the same room. */
  function Convert(rooms: seq<(Coord, CellValue)>, adjacent: set<Coord>): (r: seq<(Coord, CellValue)>)
    ensures DistinctKeys(r)
  {
    if |rooms| == 0 then []
    else
      var rest := Convert(rooms[..|rooms| - 1], adjacent);
      var (q, v) := rooms[|rooms| - 1];
      if q in adjacent then DictPut(rest, q, v) else rest
  }

  /** Every room carries a single value in `rooms`. */
  predicate SingleValued(rooms: seq<(Coord, CellValue)>) {
    forall i, j :: 0 <= i < |rooms| && 0 <= j < |rooms| && rooms[i].0 == rooms[j].0 ==> rooms[i].1 == rooms[j].1
  }

  lemma {:induction false} ConvertMembers(rooms: seq<(Coord, CellValue)>, adjacent: set<Coord>, q: Coord, v: CellValue)
    requires SingleValued(rooms)
    ensures (q, v) in Convert(rooms, adjacent) <==> q in adjacent && (q, v) in rooms
  {
    if |rooms| > 0 {
      var init := rooms[..|rooms| - 1];
      assert rooms == init + [rooms[|rooms| - 1]];
      assert SingleValued(init);
      ConvertMembers(init, adjacent, q, v);
      var (k, w) := rooms[|rooms| - 1];
      if q == k && (q, v) in init {
        var i :| 0 <= i < |init| && init[i] == (q, v);
        assert rooms[i] == (q, v);
      }
    }
  }

  /** What `wumpus_rooms(target)` / `pit_rooms(target)` return: for TRUE or MAYBE the list of
      adjacent rooms carrying that value, otherwise the whole converted dictionary. */
  datatype Answer = Rooms(rooms: seq<Coord>) | Tagged(entries: seq<(Coord, CellValue)>)

  function Select(d: seq<(Coord, CellValue)>, target: CellValue): (r: seq<Coord>)
    ensures forall q :: q in r <==> (q, target) in d
  {
    if |d| == 0 then []
    else
      assert d == d[..|d| - 1] + [d[|d| - 1]];
      Select(d[..|d| - 1], target) + (if d[|d| - 1].1 == target then [d[|d| - 1].0] else [])
  }

  function HazardRooms(kb: KB, h: Hazard, pos: Coord, known: Known, gold: bool, target: Option<CellValue>): Answer {
    var cells := if h == WumpusHazard then WumpusCells(kb) else PitCells(kb);
    var converted := Convert(cells, AdjacentRooms(pos, known, gold));
    if target.Some? && target.value in {True, Maybe} then Rooms(Select(converted, target.value))
    else Tagged(converted)
  }

  /** The knowledge base's hazard list gives each room one value. */
  lemma HazardCellsSingleValued(kb: KB, h: Hazard)
    ensures SingleValued(if h == WumpusHazard then WumpusCells(kb) else PitCells(kb))
  {
    var cells := if h == WumpusHazard then WumpusCells(kb) else PitCells(kb);
    forall i, j | 0 <= i < |cells| && 0 <= j < |cells| && cells[i].0 == cells[j].0
      ensures cells[i].1 == cells[j].1
    {
      HazardCellsExact(kb, cells[i].0, cells[i].1);
      HazardCellsExact(kb, cells[j].0, cells[j].1);
    }
  }

  /** `wumpus_rooms(target)` and `pit_rooms(target)` with TRUE or MAYBE return exactly the
      adjacent rooms whose belief carries that value. */
  lemma HazardRoomsExact(kb: KB, h: Hazard, pos: Coord, known: Known, gold: bool, target: CellValue, q: Coord)
    requires target in {True, Maybe}
    ensures HazardRooms(kb, h, pos, known, gold, Some(target)).Rooms?
    ensures q in HazardRooms(kb, h, pos, known, gold, Some(target)).rooms <==>
      q in AdjacentRooms(pos, known, gold) && Canonical(q) && HazardOf(At(kb.world, q), h) == target
  {
    var cells := if h == WumpusHazard then WumpusCells(kb) else PitCells(kb);
    HazardCellsSingleValued(kb, h);
    ConvertMembers(cells, AdjacentRooms(pos, known, gold), q, target);
    HazardCellsExact(kb, q, target);
  }
}

=== FILE: basics.dfy ===
/** Shared vocabulary: optional values, results, the exceptions the program raises,
    and Python's list-index rule, which several components rely on. */
module Basics {

  datatype Option<+T> = None | Some(value: T)

  datatype Result<+T> = Ok(value: T) | Err(error: Error)

  /** The exceptions raised by the modelled code. */
  datatype Error =
    | IndexError            // a list index out of range
    | TypeError             // a value of the wrong type (also `dict.update(None)`)
    | AttributeError        // reading an attribute that was never assigned
    | ValueError            // `int()` of text that is not a number
    | NoActionForBump       // a bump percept told without the action that caused it
    | NoDirection           // a room that is not orthogonally adjacent
    | GameOver              // an action after the game ended
    | CannotClimbOut        // CLIMB away from (0, 0)
    | UnknownPercept(name: string)

  /** The outcome of a call that mutates state: the state it leaves behind (also when it
      raises, since earlier writes are not undone) and what it returns or raises. */
  datatype Step<+S, +T> = Step(state: S, result: Result<T>)

  /** A signed (x, y) room coordinate. */
  type Coord = (int, int)

  /** Python's `s[i]` on a list of length n: negative indices count from the end,
      anything else outside the list raises. */
  function PyIndex(i: int, n: nat): (r: Option<nat>)
    ensures r.Some? <==> -(n as int) <= i < n
    ensures r.Some? ==> r.value < n && (r.value == i || r.value == i + n)
  {
    if 0 <= i < n then Some(i)
    else if -(n as int) <= i < 0 then Some(i + n)
    else None
  }

  /** The position of the first occurrence of `x` in `s`. */
  function FirstIndex<T(==)>(s: seq<T>, x: T): (i: nat)
    requires x in s
    ensures i < |s| && s[i] == x && x !in s[..i]
  {
    if s[0] == x then 0
    else
      var j := FirstIndex(s[1..], x);
      assert s[1..][..j] == s[1..j + 1];
      1 + j
  }

  /** Python's `list.remove(x)`: drops the first occurrence of `x`, keeping the rest in order. */
  function RemoveFirst<T(==)>(s: seq<T>, x: T): (r: seq<T>)
    requires x in s
    ensures |r| == |s| - 1
    ensures multiset(r) == multiset(s) - multiset{x}
  {
    var i := FirstIndex(s, x);
    assert s == s[..i] + [s[i]] + s[i + 1..];
    s[..i] + s[i + 1..]
  }
}

=== FILE: board.dfy ===
/** The game board the agent plays on (lib/game/board_model.py): the tiles as read from the
    map, the agent's position and facing, the score, and the percepts of the room the agent
    stands in. Positions are Cartesian, with (0, 0) the bottom-left room; the tile list is
    stored top row first, so room (x, y) is `tiles[height - 1 - y][x]`. */
module Boards {
  import opened Basics
  import opened Tiles
  import opened Actions
  import Sensors
  import Coords

  const GoldPoints := 100
  const PitPoints := -10000
  const WumpusPoints := -10000
  const ArrowPoints := -100
  const ClimbOutPoints := 10
  const MovePoints := -10

  datatype Position = Position(x: int, y: int)

  type Rooms = seq<seq<seq<Tile>>>

  datatype Board = Board(height: int, width: int, tiles: Rooms, agent: Position,
                         facing: Direction, points: int, gameOver: bool,
                         percepts: Sensors.Percepts)

  predicate Shaped(tiles: Rooms, height: int, width: int) {
    |tiles| == height && forall r :: 0 <= r < |tiles| ==> |tiles[r]| == width
  }

  predicate InBoard(b: Board, p: Position) {
    0 <= p.x < b.width && 0 <= p.y < b.height
  }

  /** What every board state satisfies: the tile list matches the size and the agent
      stands inside it. */
  predicate Valid(b: Board) {
    Shaped(b.tiles, b.height, b.width) && InBoard(b, b.agent)
  }

  /** The tiles of room `p`. */
  function Room(b: Board, p: Position): seq<Tile>
    requires Valid(b) && InBoard(b, p)
  {
    b.tiles[Coords.Flip(b.height, p.y)][p.x]
  }

  function Wumpi(room: seq<Tile>): nat {
    multiset(room)[Wumpus]
  }

  /** Room `(row, col)` of the tile list replaced by `room`. */
  function Put(tiles: Rooms, row: nat, col: nat, room: seq<Tile>): (r: Rooms)
    requires row < |tiles| && col < |tiles[row]|
    ensures |r| == |tiles| && forall i :: 0 <= i < |r| ==> |r[i]| == |tiles[i]|
    ensures forall i, j :: 0 <= i < |r| && 0 <= j < |r[i]| ==>
              r[i][j] == if i == row && j == col then room else tiles[i][j]
  {
    tiles[row := tiles[row][col := room]]
  }

  /** `tl_agent_position`: the agent's room counted from the top-left corner. */
  function TlAgentPosition(b: Board): (r: Position)
    ensures Coords.ToCartesian(Coords.Downward(r.x, r.y), b.height) == Coords.Cartesian(b.agent.x, b.agent.y)
    ensures Valid(b) ==> 0 <= r.y < b.height && 0 <= r.x < b.width && b.tiles[r.y][r.x] == Room(b, b.agent)
  {
    var d := Coords.ToDownward(Coords.Cartesian(b.agent.x, b.agent.y), b.height);
    Position(d.x, d.y)
  }

  /** The room one step away in direction `d`. */
  function Forward(p: Position, d: Direction): (r: Position)
    ensures (r.x, r.y) == Next((p.x, p.y), d)
  {
    var (x, y) := Next((p.x, p.y), d);
    Position(x, y)
  }

  /** What entering a room yields, tile by tile in list order: the score change, whether
      the game ends, the fresh percepts and whether gold is to be picked up. */
  datatype Entry = Entry(delta: int, over: bool, percepts: Sensors.Percepts, gold: bool)

  /** The loop over the room's tiles in `act(MOVE)`. Every gold tile scores, every pit or
      wumpus costs and ends the game, and the percepts report what the room holds. */
  function Visit(room: seq<Tile>): (e: Entry)
    ensures e.delta == GoldPoints * multiset(room)[Gold] + PitPoints * multiset(room)[Pit]
                       + WumpusPoints * multiset(room)[Wumpus]
    ensures e.over <==> Pit in room || Wumpus in room
    ensures e.gold <==> Gold in room
    ensures e.percepts == Sensors.Percepts(Stench in room, Breeze in room, Gold in room, false, false)
  {
    if |room| == 0 then Entry(0, false, Sensors.NoPercepts, false)
    else
      var init := room[..|room| - 1];
      var t := room[|room| - 1];
      assert room == init + [t];
      var e := Visit(init);
      match t
      case Gold => Entry(e.delta + GoldPoints, e.over, e.percepts.(glitter := true), true)
      case Pit => e.(delta := e.delta + PitPoints, over := true)
      case Wumpus => e.(delta := e.delta + WumpusPoints, over := true)
      case Breeze => e.(percepts := e.percepts.(breeze := true))
      case Stench => e.(percepts := e.percepts.(stench := true))
  }

  /** `act(MOVE)` on a running game. */
  function Move(b: Board): (s: Step<Board, Sensors.Percepts>)
    requires Valid(b) && !b.gameOver
    ensures s.result.Ok? && Valid(s.state)
    ensures s.state.height == b.height && s.state.width == b.width && s.state.facing == b.facing
    ensures b.agent == Position(0, 0) && b.facing == Down ==>
              s.state == b.(points := b.points + ClimbOutPoints, gameOver := true)
              && s.result.value == b.percepts
    ensures !InBoard(b, Forward(b.agent, b.facing)) && !(b.agent == Position(0, 0) && b.facing == Down) ==>
              s.state == b.(percepts := b.percepts.(bump := true)) && s.result.value == s.state.percepts
    ensures InBoard(b, Forward(b.agent, b.facing)) ==>
              var p := Forward(b.agent, b.facing);
              var room := Room(b, p);
              && s.state.agent == p
              && s.state.points == b.points + MovePoints + GoldPoints * multiset(room)[Gold]
                                   + PitPoints * multiset(room)[Pit] + WumpusPoints * multiset(room)[Wumpus]
              && (s.state.gameOver <==> Pit in room || Wumpus in room)
              && s.result.value == s.state.percepts
              && s.result.value == Sensors.Percepts(Stench in room, Breeze in room, Gold in room, false, false)
              && Room(s.state, p) == (if Gold in room then RemoveFirst(room, Gold) else room)
              && forall q :: InBoard(b, q) && q != p ==> Room(s.state, q) == Room(b, q)
  {
    if b.agent == Position(0, 0) && b.facing == Down then
      Step(b.(points := b.points + ClimbOutPoints, gameOver := true), Ok(b.percepts))
    else
      var p := Forward(b.agent, b.facing);
      if InBoard(b, p) then
        var row := Coords.Flip(b.height, p.y);
        var room := b.tiles[row][p.x];
        var e := Visit(room);
        var tiles := if e.gold then Put(b.tiles, row, p.x, RemoveFirst(room, Gold)) else b.tiles;
        var after := b.(agent := p, points := b.points + MovePoints + e.delta, gameOver := e.over,
                        tiles := tiles, percepts := e.percepts);
        Step(after, Ok(e.percepts))
      else
        var percepts := b.percepts.(bump := true);
        Step(b.(percepts := percepts), Ok(percepts))
  }

  /** Room `p` lies straight ahead of `a` when facing `d`. */
  predicate Ahead(a: Position, d: Direction, p: Position) {
    match d
    case Up => p.x == a.x && p.y > a.y
    case Down => p.x == a.x && p.y < a.y
    case Left => p.y == a.y && p.x < a.x
    case Right => p.y == a.y && p.x > a.x
  }

  function Dist(a: Position, p: Position): nat {
    (if p.x < a.x then a.x - p.x else p.x - a.x) + (if p.y < a.y then a.y - p.y else p.y - a.y)
  }

  /** The rooms an arrow passes, nearest first. The downward and leftward scans run while
      the coordinate is at least `lo`. */
  function Beam(b: Board, lo: nat): (r: seq<Position>)
    requires Valid(b)
    ensures forall i :: 0 <= i < |r| ==>
              InBoard(b, r[i]) && Ahead(b.agent, b.facing, r[i]) && Dist(b.agent, r[i]) == i + 1
    ensures forall i :: 0 <= i < |r| ==> (b.facing == Down ==> r[i].y >= lo) && (b.facing == Left ==> r[i].x >= lo)
  {
    var a := b.agent;
    match b.facing
    case Up => seq(b.height - 1 - a.y, i requires 0 <= i => Position(a.x, a.y + 1 + i))
    case Right => seq(b.width - 1 - a.x, i requires 0 <= i => Position(a.x + 1 + i, a.y))
    case Down => seq(if a.y < lo then 0 else a.y - lo, i requires 0 <= i => Position(a.x, a.y - 1 - i))
    case Left => seq(if a.x < lo then 0 else a.x - lo, i requires 0 <= i => Position(a.x - 1 - i, a.y))
  }

  /** The beam reaches every room ahead whose coordinate along the beam is at least `lo`. */
  lemma BeamCovers(b: Board, lo: nat, p: Position)
    requires Valid(b) && InBoard(b, p) && Ahead(b.agent, b.facing, p)
    requires (b.facing == Down ==> p.y >= lo) && (b.facing == Left ==> p.x >= lo)
    ensures p in Beam(b, lo)
  {
    var r := Beam(b, lo);
    var a := b.agent;
    match b.facing
    case Up => assert r[p.y - a.y - 1] == p;
    case Down => assert r[a.y - p.y - 1] == p;
    case Left => assert r[a.x - p.x - 1] == p;
    case Right => assert r[p.x - a.x - 1] == p;
  }

  /** The rooms the arrow passes as the code is written: `range(y - 1, 0, -1)` and
      `range(x - 1, 0, -1)` stop before row and column 0. */
  function RayAsWritten(b: Board): seq<Position>
    requires Valid(b)
  {
    Beam(b, 1)
  }

  /** The rooms an arrow passes: every room straight ahead up to the edge. */
  function Ray(b: Board): (r: seq<Position>)
    requires Valid(b)
    ensures forall p :: p in r <==> InBoard(b, p) && Ahead(b.agent, b.facing, p)
  {
    var r := Beam(b, 0);
    assert forall p :: InBoard(b, p) && Ahead(b.agent, b.facing, p) ==> p in r by {
      forall p | InBoard(b, p) && Ahead(b.agent, b.facing, p) {
        BeamCovers(b, 0, p);
      }
    }
    r
  }

  /** The index of the first room on `ray` that holds a wumpus. */
  function FirstWumpus(b: Board, ray: seq<Position>): (r: Option<nat>)
    requires Valid(b) && forall i :: 0 <= i < |ray| ==> InBoard(b, ray[i])
    ensures r.Some? ==> r.value < |ray| && Wumpus in Room(b, ray[r.value])
    ensures r.Some? ==> forall j :: 0 <= j < r.value ==> Wumpus !in Room(b, ray[j])
    ensures r.None? ==> forall j :: 0 <= j < |ray| ==> Wumpus !in Room(b, ray[j])
  {
    if |ray| == 0 then None
    else if Wumpus in Room(b, ray[0]) then Some(0)
    else
      match FirstWumpus(b, ray[1..])
      case None => None
      case Some(i) => Some(i + 1)
  }

  /** The room the arrow hits: the nearest room straight ahead that holds a wumpus. */
  function Target(b: Board): (r: Option<Position>)
    requires Valid(b)
    ensures r.Some? ==> InBoard(b, r.value) && Ahead(b.agent, b.facing, r.value) && Wumpus in Room(b, r.value)
    ensures r.Some? ==> forall p :: InBoard(b, p) && Ahead(b.agent, b.facing, p) && Dist(b.agent, p) < Dist(b.agent, r.value)
                                    ==> Wumpus !in Room(b, p)
    ensures r.None? <==> forall p :: InBoard(b, p) && Ahead(b.agent, b.facing, p) ==> Wumpus !in Room(b, p)
  {
    var ray := Ray(b);
    match FirstWumpus(b, ray)
    case None => None
    case Some(i) =>
      assert forall p :: InBoard(b, p) && Ahead(b.agent, b.facing, p) && Dist(b.agent, p) < Dist(b.agent, ray[i])
                         ==> Wumpus !in Room(b, p) by {
        forall p | InBoard(b, p) && Ahead(b.agent, b.facing, p) && Dist(b.agent, p) < Dist(b.agent, ray[i])
          ensures Wumpus !in Room(b, p)
        {
          var j :| 0 <= j < |ray| && ray[j] == p;
          assert j < i;
        }
      }
      Some(ray[i])
  }

  /** Room (row + dr, col + dc) counts as next to (row, col). */
  predicate Around(i: int, j: int, row: int, col: int) {
    (i == row - 1 && j == col) || (i == row + 1 && j == col) || (i == row && j == col - 1) || (i == row && j == col + 1)
  }

  /** One `try` of `_remove_stench_around`, as written: a negative index wraps to the far
      edge, an index past the end raises and is swallowed. */
  function DropStenchAsWritten(tiles: Rooms, row: int, col: int): (r: Rooms)
    ensures |r| == |tiles| && forall i :: 0 <= i < |r| ==> |r[i]| == |tiles[i]|
  {
    match PyIndex(row, |tiles|)
    case None => tiles
    case Some(i) =>
      match PyIndex(col, |tiles[i]|)
      case None => tiles
      case Some(j) => if Stench in tiles[i][j] then Put(tiles, i, j, RemoveFirst(tiles[i][j], Stench)) else tiles
  }

  /** `_remove_stench_around(x, y)` as written, on tile-list indices. */
  function RemoveStenchAroundAsWritten(tiles: Rooms, col: int, row: int): (r: Rooms)
    ensures |r| == |tiles| && forall i :: 0 <= i < |r| ==> |r[i]| == |tiles[i]|
  {
    var t1 := DropStenchAsWritten(tiles, row - 1, col);
    var t2 := DropStenchAsWritten(t1, row + 1, col);
    var t3 := DropStenchAsWritten(t2, row, col - 1);
    DropStenchAsWritten(t3, row, col + 1)
  }

  /** One neighbour of the corrected `_remove_stench_around`: rooms off the board are
      skipped. */
  function DropStench(tiles: Rooms, row: int, col: int): (r: Rooms)
    ensures |r| == |tiles| && forall i :: 0 <= i < |r| ==> |r[i]| == |tiles[i]|
    ensures forall i, j :: 0 <= i < |r| && 0 <= j < |r[i]| ==>
              r[i][j] == if i == row && j == col && Stench in tiles[i][j]
                         then RemoveFirst(tiles[i][j], Stench) else tiles[i][j]
  {
    if 0 <= row < |tiles| && 0 <= col < |tiles[row]| && Stench in tiles[row][col]
    then Put(tiles, row, col, RemoveFirst(tiles[row][col], Stench))
    else tiles
  }

  /** `_remove_stench_around(x, y)` with the wrap-around removed: one stench leaves each of
      the up to four rooms next to (row, col), and nothing else changes. */
  function RemoveStenchAround(tiles: Rooms, col: int, row: int): (r: Rooms)
    ensures |r| == |tiles| && forall i :: 0 <= i < |r| ==> |r[i]| == |tiles[i]|
    ensures forall i, j :: 0 <= i < |r| && 0 <= j < |r[i]| ==>
              r[i][j] == if Around(i, j, row, col) && Stench in tiles[i][j]
                         then RemoveFirst(tiles[i][j], Stench) else tiles[i][j]
  {
    var t1 := DropStench(tiles, row - 1, col);
    var t2 := DropStench(t1, row + 1, col);
    var t3 := DropStench(t2, row, col - 1);
    DropStench(t3, row, col + 1)
  }

  /** Removing a stench tile leaves every other kind of tile in the room. */
  lemma DropKeepsOthers(room: seq<Tile>, t: Tile)
    requires Stench in room && t != Stench
    ensures multiset(RemoveFirst(room, Stench))[t] == multiset(room)[t]
  {
  }

  /** `_shoot` with the arrow scanning `ray`: the arrow always costs; a wumpus on the ray
      is removed from the first room holding one, along with the stench around it. */
  function Fire(b: Board, ray: seq<Position>, wrap: bool): (r: (Board, bool))
    requires Valid(b) && forall i :: 0 <= i < |ray| ==> InBoard(b, ray[i])
    ensures Valid(r.0) && r.0.agent == b.agent && r.0.facing == b.facing
    ensures r.0.height == b.height && r.0.width == b.width
    ensures r.0.gameOver == b.gameOver && r.0.percepts == b.percepts
    ensures r.0.points == b.points + ArrowPoints
    ensures r.1 <==> FirstWumpus(b, ray).Some?
    ensures !r.1 ==> r.0.tiles == b.tiles
  {
    var after := b.(points := b.points + ArrowPoints);
    var first := FirstWumpus(b, ray);
    if first.None? then (after, false)
    else
      var p := ray[first.value];
      var row := Coords.Flip(b.height, p.y);
      (after.(tiles := Kill(b.tiles, b.height, b.width, row, p.x, wrap)), true)
  }

  /** The tile list once the wumpus in (row, col) is removed, with the stench around it. */
  function Kill(tiles: Rooms, height: int, width: int, row: nat, col: nat, wrap: bool): (r: Rooms)
    requires Shaped(tiles, height, width) && row < height && col < width && Wumpus in tiles[row][col]
    ensures Shaped(r, height, width)
  {
    var t := Put(tiles, row, col, RemoveFirst(tiles[row][col], Wumpus));
    SameShape(tiles, t, height, width);
    var r := ClearStench(t, col, row, wrap);
    SameShape(t, r, height, width);
    r
  }

  /** The stench removal of either version, seen only through the shape it keeps. */
  function ClearStench(tiles: Rooms, col: int, row: int, wrap: bool): (r: Rooms)
    ensures |r| == |tiles| && forall i :: 0 <= i < |r| ==> |r[i]| == |tiles[i]|
  {
    if wrap then RemoveStenchAroundAsWritten(tiles, col, row) else RemoveStenchAround(tiles, col, row)
  }

  lemma SameShape(tiles: Rooms, r: Rooms, height: int, width: int)
    requires Shaped(tiles, height, width)
    requires |r| == |tiles| && forall i :: 0 <= i < |r| ==> |r[i]| == |tiles[i]|
    ensures Shaped(r, height, width)
  {
  }

  /** `_shoot` as written: short scans downward and leftward, wrapping stench removal. */
  function ShootAsWritten(b: Board): (Board, bool)
    requires Valid(b)
  {
    Fire(b, RayAsWritten(b), true)
  }

  /** `_shoot`, corrected: the arrow flies to the board's edge and kills the nearest wumpus
      ahead; exactly one wumpus tile disappears, from the target room. */
  function ShootArrow(b: Board): (r: (Board, bool))
    requires Valid(b)
    ensures Valid(r.0) && r.0.agent == b.agent && r.0.facing == b.facing
    ensures r.0.height == b.height && r.0.width == b.width
    ensures r.0.gameOver == b.gameOver && r.0.percepts == b.percepts
    ensures r.0.points == b.points + ArrowPoints
    ensures r.1 <==> Target(b).Some?
    ensures !r.1 ==> r.0.tiles == b.tiles
    ensures r.1 ==> forall q :: InBoard(b, q) ==>
              Wumpi(Room(r.0, q)) == Wumpi(Room(b, q)) - (if q == Target(b).value then 1 else 0)
  {
    var ray := Ray(b);
    var r := Fire(b, ray, false);
    if r.1 then
      ShootKillsOne(b, ray);
      r
    else r
  }

  /** The corrected shot removes one wumpus from the first room on the ray holding one,
      and no wumpus anywhere else. */
  lemma ShootKillsOne(b: Board, ray: seq<Position>)
    requires Valid(b) && ray == Ray(b) && FirstWumpus(b, ray).Some?
    ensures Target(b) == Some(ray[FirstWumpus(b, ray).value])
    ensures forall q :: InBoard(b, q) ==>
              Wumpi(Room(Fire(b, ray, false).0, q)) == Wumpi(Room(b, q)) - (if q == Target(b).value then 1 else 0)
  {
    var p := ray[FirstWumpus(b, ray).value];
    var row := Coords.Flip(b.height, p.y);
    var cleared := Kill(b.tiles, b.height, b.width, row, p.x, false);
    assert Fire(b, ray, false).0.tiles == cleared;
    forall q | InBoard(b, q)
      ensures Wumpi(cleared[Coords.Flip(b.height, q.y)][q.x]) == Wumpi(Room(b, q)) - (if q == p then 1 else 0)
    {
      KillCounts(b.tiles, b.height, b.width, row, p.x, Coords.Flip(b.height, q.y), q.x);
    }
  }

  /** Killing the wumpus in (row, col) takes one wumpus tile from that room and none from
      any other. */
  lemma KillCounts(tiles: Rooms, height: int, width: int, row: nat, col: nat, i: nat, j: nat)
    requires Shaped(tiles, height, width) && row < height && col < width && Wumpus in tiles[row][col]
    requires i < height && j < width
    ensures Wumpi(Kill(tiles, height, width, row, col, false)[i][j])
            == Wumpi(tiles[i][j]) - (if i == row && j == col then 1 else 0)
  {
    var t := Put(tiles, row, col, RemoveFirst(tiles[row][col], Wumpus));
    assert Kill(tiles, height, width, row, col, false) == RemoveStenchAround(t, col, row);
    if Around(i, j, row, col) && Stench in t[i][j] {
      DropKeepsOthers(t[i][j], Wumpus);
    }
  }

  /** The CLIMB branch of `act`. */
  function ClimbOut(b: Board): Step<Board, Sensors.Percepts> {
    if b.agent == Position(0, 0) then
      Step(b.(points := b.points + ClimbOutPoints, gameOver := true), Ok(b.percepts))
    else Step(b, Err(CannotClimbOut))
  }

  /** `act(action)`: the percepts the agent receives, or the exception raised. */
  function Act(b: Board, action: Action): (s: Step<Board, Sensors.Percepts>)
    requires Valid(b)
    ensures Valid(s.state) && s.state.height == b.height && s.state.width == b.width
    ensures b.gameOver ==> s == Step(b, Err(GameOver))
    ensures s.result.Err? ==> s.state == b
    ensures s.result.Ok? ==> s.state.facing == b.facing && s.result.value == s.state.percepts
    ensures !b.gameOver && action == Shoot ==>
              && s.state.points == b.points + ArrowPoints
              && s.state.agent == b.agent && !s.state.gameOver
              && (s.result.value.scream <==> Target(b).Some? || b.percepts.scream)
              && s.result.value == b.percepts.(scream := b.percepts.scream || Target(b).Some?)
    ensures !b.gameOver && action == Climb ==>
              && (s.result.Ok? <==> b.agent == Position(0, 0))
              && (s.result.Err? ==> s.result.error == CannotClimbOut)
              && (s.result.Ok? ==> s.state.gameOver && s.state.points == b.points + ClimbOutPoints
                                   && s.state.agent == b.agent && s.state.tiles == b.tiles)
  {
    if b.gameOver then Step(b, Err(GameOver))
    else
      match action
      case Move => Move(b)
      case Shoot =>
        var (after, hit) := ShootArrow(b);
        var percepts := if hit then after.percepts.(scream := true) else after.percepts;
        Step(after.(percepts := percepts), Ok(percepts))
      case Climb => ClimbOut(b)
  }
}

/** The two board defects, each shown on a concrete board next to the corrected behaviour. */
module BoardFindings {
  import opened Basics
  import opened Tiles
  import opened Actions
  import opened Boards
  import Sensors

  /** Two rooms stacked; the agent in the upper one faces down at a wumpus in (0, 0). */
  const Below: Board := Board(2, 1, [[[]], [[Wumpus]]], Position(0, 1), Down, 0, false, Sensors.NoPercepts)

  /** As written the downward scan never looks at row 0: the arrow misses the wumpus
      straight below. The corrected shot kills it. */
  lemma ShotStopsShort()
    ensures Valid(Below) && InBoard(Below, Position(0, 0)) && Ahead(Below.agent, Below.facing, Position(0, 0))
    ensures Wumpus in Room(Below, Position(0, 0))
    ensures !ShootAsWritten(Below).1
    ensures ShootArrow(Below).1 && Target(Below) == Some(Position(0, 0))
  {
    assert RayAsWritten(Below) == [];
    assert Room(Below, Position(0, 0)) == [Wumpus];
    var ray := Ray(Below);
    assert ray == [Position(0, 0)];
    assert FirstWumpus(Below, ray) == Some(0);
  }

  /** On every board the arrow as written passes the same rooms as the corrected one, except
      that a downward or leftward shot never reaches the last room before the edge: row 0
      straight below, or column 0 straight to the left. */
  lemma RayAsWrittenDropsEdge(b: Board)
    requires Valid(b)
    ensures b.facing == Up || b.facing == Right ==> RayAsWritten(b) == Ray(b)
    ensures b.facing == Down && b.agent.y > 0 ==>
      |Ray(b)| > 0 && RayAsWritten(b) == Ray(b)[..|Ray(b)| - 1] && Ray(b)[|Ray(b)| - 1] == Position(b.agent.x, 0)
    ensures b.facing == Left && b.agent.x > 0 ==>
      |Ray(b)| > 0 && RayAsWritten(b) == Ray(b)[..|Ray(b)| - 1] && Ray(b)[|Ray(b)| - 1] == Position(0, b.agent.y)
    ensures (b.facing == Down && b.agent.y == 0) || (b.facing == Left && b.agent.x == 0) ==>
      RayAsWritten(b) == Ray(b) == []
  {
    var r := Ray(b);
    var w := RayAsWritten(b);
    assert r == Beam(b, 0) && w == Beam(b, 1);
    if (b.facing == Down && b.agent.y > 0) || (b.facing == Left && b.agent.x > 0) {
      assert |w| == |r| - 1;
      assert w == r[..|r| - 1];
    }
  }

  /** Three rooms in a column, stench in the two lower ones. */
  const Column: Rooms := [[[]], [[Stench]], [[Stench]]]

  /** Clearing the stench around a wumpus killed in the top row: as written the index
      row - 1 = -1 wraps to the bottom row, two rooms away, and removes its stench too.
      The corrected removal leaves the bottom row alone. */
  lemma StenchWraps()
    ensures !Around(2, 0, 0, 0) && Stench in Column[2][0]
    ensures RemoveStenchAroundAsWritten(Column, 0, 0)[2][0] == []
    ensures RemoveStenchAround(Column, 0, 0)[2][0] == [Stench]
  {
    assert PyIndex(-1, 3) == Some(2) && PyIndex(0, 1) == Some(0);
    assert |RemoveFirst([Stench], Stench)| == 0;
    var t1 := DropStenchAsWritten(Column, -1, 0);
    assert RemoveFirst([Stench], Stench) == [];
    assert t1 == Put(Column, 2, 0, []);
    assert Column[2][0 := []] == [[]];
    assert t1 == [[[]], [[Stench]], [[]]];
    var t2 := DropStenchAsWritten(t1, 1, 0);
    assert t2 == [[[]], [[]], [[]]];
  }
}

=== FILE: board_data.dfy ===
/** Tile kinds and the text map format (lib/game/board_data.py). The first line holds the
    height; every later line is one row, its fields separated by '.', and each letter of a
    field (in either case) puts one tile in that room. The file itself is not read here:
    the parser works on the list of lines `readlines()` would return. */
module Tiles {
  import opened Basics

  datatype Tile = Wumpus | Pit | Gold | Breeze | Stench

  /** `str(tile)`. */
  function Letter(t: Tile): char {
    match t
    case Wumpus => 'W'
    case Pit => 'P'
    case Gold => 'G'
    case Breeze => 'B'
    case Stench => 'S'
  }

  /** `ch.upper()` for ASCII characters. */
  function Upper(ch: char): (r: char)
    ensures 'a' <= ch <= 'z' ==> r as int == ch as int - 32
    ensures !('a' <= ch <= 'z') ==> r == ch
  {
    if 'a' <= ch <= 'z' then (ch as int - 32) as char else ch
  }

  /** The tile a character of a field names, if any. */
  function TileOf(ch: char): (r: Option<Tile>)
    ensures r.Some? ==> Letter(r.value) == Upper(ch)
    ensures r.None? ==> forall t :: Letter(t) != Upper(ch)
  {
    var u := Upper(ch);
    if u == 'W' then Some(Wumpus)
    else if u == 'P' then Some(Pit)
    else if u == 'G' then Some(Gold)
    else if u == 'B' then Some(Breeze)
    else if u == 'S' then Some(Stench)
    else None
  }

  /** The tiles one field appends, in the order of its letters. */
  function TilesOf(field: string): (r: seq<Tile>)
    ensures |r| <= |field|
  {
    if |field| == 0 then []
    else
      TilesOf(field[..|field| - 1])
      + match TileOf(field[|field| - 1]) case Some(t) => [t] case None => []
  }

  /** Every tile a field yields comes from a letter of that field. */
  lemma {:induction false} TilesOfLetters(field: string, t: Tile)
    ensures t in TilesOf(field) <==> exists i :: 0 <= i < |field| && TileOf(field[i]) == Some(t)
  {
    if |field| > 0 {
      var init := field[..|field| - 1];
      TilesOfLetters(init, t);
      if exists i :: 0 <= i < |init| && TileOf(init[i]) == Some(t) {
        var i :| 0 <= i < |init| && TileOf(init[i]) == Some(t);
        assert field[i] == init[i];
      }
      if exists i :: 0 <= i < |field| && TileOf(field[i]) == Some(t) {
        var i :| 0 <= i < |field| && TileOf(field[i]) == Some(t);
        if i < |init| {
          assert init[i] == field[i];
        }
      }
    }
  }

  /** `s.split(".")`: the fields between the dots; a string without dots is one field. */
  function Split(s: string): (r: seq<string>)
    ensures |r| >= 1
    ensures forall i :: 0 <= i < |r| ==> '.' !in r[i]
  {
    if '.' !in s then [s]
    else
      var i := FirstIndex(s, '.');
      [s[..i]] + Split(s[i + 1..])
  }

  /** `".".join(fields)`. */
  function Join(fields: seq<string>): string
    requires |fields| >= 1
  {
    if |fields| == 1 then fields[0] else fields[0] + "." + Join(fields[1..])
  }

  /** Splitting at the dots and joining the fields again gives back the line. */
  lemma {:induction false} SplitJoin(s: string)
    ensures Join(Split(s)) == s
  {
    if '.' in s {
      var i := FirstIndex(s, '.');
      var rest := Split(s[i + 1..]);
      SplitJoin(s[i + 1..]);
      JoinCons(s[..i], rest);
      assert Split(s) == [s[..i]] + rest;
      assert s == s[..i] + "." + s[i + 1..];
    }
  }

  /** Joining a field in front of further fields puts one dot between them. */
  lemma JoinCons(field: string, rest: seq<string>)
    requires |rest| >= 1
    ensures Join([field] + rest) == field + "." + Join(rest)
  {
    assert ([field] + rest)[1..] == rest;
  }

  predicate IsDigit(ch: char) {
    '0' <= ch <= '9'
  }

  predicate IsSpace(ch: char) {
    ch == ' ' || ch == '\t' || ch == '\n' || ch == '\r' || 11 <= ch as int <= 12 || 28 <= ch as int <= 31
  }

  /** `s.strip()` for ASCII whitespace. */
  function Strip(s: string): (r: string)
    ensures |r| <= |s|
    ensures |r| > 0 ==> !IsSpace(r[0]) && !IsSpace(r[|r| - 1])
  {
    if |s| > 0 && IsSpace(s[0]) then Strip(s[1..])
    else if |s| > 0 && IsSpace(s[|s| - 1]) then Strip(s[..|s| - 1])
    else s
  }

  function DigitValue(ch: char): (d: nat)
    requires IsDigit(ch)
    ensures d < 10
  {
    ch as int - '0' as int
  }

  /** The value of a string of decimal digits. */
  function DigitsValue(s: string): (n: nat)
    requires forall i :: 0 <= i < |s| ==> IsDigit(s[i])
  {
    if |s| == 0 then 0 else 10 * DigitsValue(s[..|s| - 1]) + DigitValue(s[|s| - 1])
  }

  predicate AllDigits(s: string) {
    |s| > 0 && forall i :: 0 <= i < |s| ==> IsDigit(s[i])
  }

  /** `int(s)`: optional surrounding whitespace, an optional sign, then decimal digits;
      anything else is a ValueError. */
  function IntOf(s: string): (r: Result<int>)
    ensures r.Err? ==> r.error == ValueError
  {
    var t := Strip(s);
    if AllDigits(t) then Ok(DigitsValue(t))
    else if |t| > 0 && t[0] in {'+', '-'} && AllDigits(t[1..]) then
      var v: int := DigitsValue(t[1..]);
      Ok(if t[0] == '-' then -v else v)
    else Err(ValueError)
  }

  /** The decimal text of `n`, as `str(n)` writes it. */
  function Decimal(n: nat): (s: string)
    ensures AllDigits(s)
  {
    var d := ['0' + (n % 10) as char];
    if n < 10 then d else Decimal(n / 10) + d
  }

  lemma {:induction false} DecimalValue(n: nat)
    ensures DigitsValue(Decimal(n)) == n
  {
    var s := Decimal(n);
    if n >= 10 {
      DecimalValue(n / 10);
      assert s[..|s| - 1] == Decimal(n / 10);
    }
  }

  /** `int()` reads back what `str()` writes, with the line break a file line ends in and
      with a minus sign in front. */
  lemma IntOfDecimal(n: nat)
    ensures IntOf(Decimal(n)) == Ok(n)
    ensures IntOf(Decimal(n) + "\n") == Ok(n)
    ensures IntOf("-" + Decimal(n)) == Ok(-(n as int))
    ensures IntOf("-" + Decimal(n) + "\n") == Ok(-(n as int))
  {
    DecimalValue(n);
    IntOfUnsigned(Decimal(n));
    IntOfNegative(Decimal(n));
  }

  /** The height line as written: the number followed by its line break. */
  lemma IntOfLine(n: nat)
    ensures IntOf(Decimal(n) + "\n") == Ok(n)
  {
    DecimalValue(n);
    IntOfUnsigned(Decimal(n));
  }

  /** Digits, alone or before a line break, read as their value. */
  lemma IntOfUnsigned(s: string)
    requires AllDigits(s)
    ensures IntOf(s) == Ok(DigitsValue(s))
    ensures IntOf(s + "\n") == Ok(DigitsValue(s))
  {
    assert Strip(s) == s;
    StripLineBreak(s);
    SameStrip(s + "\n", s);
  }

  /** A minus sign and digits, alone or before a line break, read as the negated value. */
  lemma IntOfNegative(s: string)
    requires AllDigits(s)
    ensures IntOf("-" + s) == Ok(-(DigitsValue(s) as int))
    ensures IntOf("-" + s + "\n") == Ok(-(DigitsValue(s) as int))
  {
    var m := "-" + s;
    assert m[1..] == s;
    assert Strip(m) == m;
    IntOfSigned(m);
    StripLineBreak(m);
    SameStrip(m + "\n", m);
  }

  lemma IntOfSigned(m: string)
    requires |m| > 0 && m[0] == '-' && AllDigits(m[1..]) && Strip(m) == m
    ensures IntOf(m) == Ok(-(DigitsValue(m[1..]) as int))
  {
    assert !IsDigit(m[0]);
  }

  /** `int()` only sees the stripped text. */
  lemma SameStrip(a: string, b: string)
    requires Strip(a) == Strip(b)
    ensures IntOf(a) == IntOf(b)
  {
  }

  /** A trailing line break is stripped. */
  lemma StripLineBreak(s: string)
    requires Strip(s) == s
    ensures Strip(s + "\n") == s
  {
    assert (s + "\n")[..|s + "\n"| - 1] == s;
  }

  /** The parsed map: `height` as read, `width` from the first row, and a list of rooms. */
  datatype BoardData = BoardData(height: int, width: nat, tiles: seq<seq<seq<Tile>>>)

  /** Field `x` of row `y`, or the empty field past the end of the text. */
  function FieldAt(rows: seq<string>, y: nat, x: nat): string {
    if y < |rows| && x < |Split(rows[y])| then Split(rows[y])[x] else ""
  }

  /** Some letter lies in a room the list built from the first two lines does not have. */
  predicate Overflows(rows: seq<string>, height: nat, width: nat) {
    exists y, x :: 0 <= y < |rows| && 0 <= x < |Split(rows[y])| && TilesOf(Split(rows[y])[x]) != []
      && (y >= height || x >= width)
  }

  /** `read_board_data` on the lines of a file. */
  function ReadBoardData(lines: seq<string>): (r: Result<BoardData>)
    ensures r.Ok? ==> |r.value.tiles| == (if r.value.height < 0 then 0 else r.value.height)
    ensures r.Ok? ==> forall y :: 0 <= y < |r.value.tiles| ==> |r.value.tiles[y]| == r.value.width
    ensures r.Ok? ==> |lines| >= 2 && r.value.width == |Split(lines[1])| && IntOf(lines[0]) == Ok(r.value.height)
    ensures |lines| > 0 && IntOf(lines[0]).Err? ==> r == Err(ValueError)
    ensures r.Err? ==> r.error in {IndexError, ValueError}
    ensures |lines| == 0 || (|lines| == 1 && IntOf(lines[0]).Ok?) ==> r == Err(IndexError)
    ensures |lines| >= 2 && IntOf(lines[0]).Ok? && r.Err? ==> r.error == IndexError
    ensures |lines| >= 2 && IntOf(lines[0]).Ok? ==>
              (r.Err? <==> Overflows(lines[1..], if IntOf(lines[0]).value < 0 then 0 else IntOf(lines[0]).value, |Split(lines[1])|))
  {
    if |lines| == 0 then Err(IndexError)
    else
      match IntOf(lines[0])
      case Err(e) => Err(e)
      case Ok(height) =>
        if |lines| < 2 then Err(IndexError)
        else
          var rows := lines[1..];
          var n: nat := if height < 0 then 0 else height;
          var width := |Split(rows[0])|;
          if Overflows(rows, n, width) then Err(IndexError)
          else Ok(BoardData(height, width, seq(n, y requires 0 <= y < n => seq(width, x requires 0 <= x < width => TilesOf(FieldAt(rows, y, x))))))
  }

  /** A room written out: the `str` of each of its tiles, in order. */
  function Word(room: seq<Tile>): (s: string)
    ensures |s| == |room| && '.' !in s
  {
    if |room| == 0 then "" else Word(room[..|room| - 1]) + [Letter(room[|room| - 1])]
  }

  /** One row of rooms written out as a line of the map file: the rooms' words joined with
      '.', and the line break `readlines()` keeps. */
  function Row(rooms: seq<seq<Tile>>): string
    requires |rooms| >= 1
  {
    Join(seq(|rooms|, x requires 0 <= x < |rooms| => Word(rooms[x]))) + "\n"
  }

  /** A whole map written out: the height line, then one line per row. */
  function MapText(m: seq<seq<seq<Tile>>>): seq<string>
    requires forall y :: 0 <= y < |m| ==> |m[y]| >= 1
  {
    [Decimal(|m|) + "\n"] + seq(|m|, y requires 0 <= y < |m| => Row(m[y]))
  }

  /** Writing any rectangular map of at least one room and reading it back gives the map:
      the same height, the width of its rows, and every room's tiles in order. */
  lemma ParseWritten(m: seq<seq<seq<Tile>>>, width: nat)
    requires |m| >= 1 && width >= 1
    requires forall y :: 0 <= y < |m| ==> |m[y]| == width
    ensures ReadBoardData(MapText(m)) == Ok(BoardData(|m|, width, m))
  {
    var lines := MapText(m);
    var rows := lines[1..];
    IntOfLine(|m|);
    assert lines[0] == Decimal(|m|) + "\n";
    forall y | 0 <= y < |m|
      ensures |Split(rows[y])| == width
      ensures forall x :: 0 <= x < width ==> TilesOf(FieldAt(rows, y, x)) == m[y][x]
    {
      assert rows[y] == Row(m[y]);
      RowFields(m[y]);
    }
    assert !Overflows(rows, |m|, width);
    var n := |m|;
    var tiles := seq(n, y requires 0 <= y < n => seq(width, x requires 0 <= x < width => TilesOf(FieldAt(rows, y, x))));
    forall y | 0 <= y < n ensures tiles[y] == m[y] {
      assert forall x :: 0 <= x < width ==> tiles[y][x] == m[y][x];
    }
    assert tiles == m;
    assert |Split(rows[0])| == width;
    assert IntOf(lines[0]) == Ok(n) && |lines| >= 2;
    assert ReadBoardData(lines) == Ok(BoardData(n, width, tiles));
  }

  /** Splitting a written row gives one field per room, each naming that room's tiles. */
  lemma RowFields(rooms: seq<seq<Tile>>)
    requires |rooms| >= 1
    ensures |Split(Row(rooms))| == |rooms|
    ensures forall x :: 0 <= x < |rooms| ==> TilesOf(Split(Row(rooms))[x]) == rooms[x]
  {
    var fs := seq(|rooms|, x requires 0 <= x < |rooms| => Word(rooms[x]));
    assert Row(rooms) == Join(fs) + "\n";
    JoinSplit(fs, "\n");
    var sp := Split(Row(rooms));
    var n := |fs|;
    assert sp == fs[..n - 1] + [fs[n - 1] + "\n"];
    forall x | 0 <= x < n ensures TilesOf(sp[x]) == rooms[x] {
      WordTiles(rooms[x]);
      if x == n - 1 {
        assert sp[x] == Word(rooms[x]) + "\n";
        TilesOfLineBreak(Word(rooms[x]));
      } else {
        assert sp[x] == Word(rooms[x]);
      }
    }
  }

  /** The tiles of a written room are the room. */
  lemma {:induction false} WordTiles(room: seq<Tile>)
    ensures TilesOf(Word(room)) == room
  {
    if |room| > 0 {
      var w := Word(room);
      var init := room[..|room| - 1];
      WordTiles(init);
      assert w[..|w| - 1] == Word(init);
      LetterTile(room[|room| - 1]);
      assert room == init + [room[|room| - 1]];
    }
  }

  lemma LetterTile(t: Tile)
    ensures TileOf(Letter(t)) == Some(t)
  {
  }

  /** The line break at the end of the last field names no tile. */
  lemma TilesOfLineBreak(field: string)
    ensures TilesOf(field + "\n") == TilesOf(field)
  {
    assert (field + "\n")[..|field|] == field;
  }

  /** Splitting fields joined with '.' gives the fields back, `tail` staying on the last. */
  lemma {:induction false} JoinSplit(fs: seq<string>, tail: string)
    requires |fs| >= 1 && '.' !in tail
    requires forall i :: 0 <= i < |fs| ==> '.' !in fs[i]
    ensures Split(Join(fs) + tail) == fs[..|fs| - 1] + [fs[|fs| - 1] + tail]
  {
    var n := |fs|;
    if n == 1 {
      NoDot(fs[0], tail);
      assert Join(fs) == fs[0];
      assert fs[..n - 1] == [];
    } else {
      JoinSplit(fs[1..], tail);
      JoinSplitStep(fs, tail);
    }
  }

  /** One step of `JoinSplit`: from the fields after the first to all of them. */
  lemma JoinSplitStep(fs: seq<string>, tail: string)
    requires |fs| >= 2 && '.' !in fs[0]
    requires Split(Join(fs[1..]) + tail) == fs[1..][..|fs| - 2] + [fs[1..][|fs| - 2] + tail]
    ensures Split(Join(fs) + tail) == fs[..|fs| - 1] + [fs[|fs| - 1] + tail]
  {
    var rest := Join(fs[1..]) + tail;
    JoinUnfold(fs, tail);
    SplitCons(fs[0], rest);
    SplitAssemble(fs, Split(rest), tail);
  }

  lemma JoinUnfold(fs: seq<string>, tail: string)
    requires |fs| >= 2
    ensures Join(fs) + tail == fs[0] + "." + (Join(fs[1..]) + tail)
  {
  }

  lemma SplitAssemble(fs: seq<string>, later: seq<string>, tail: string)
    requires |fs| >= 2
    requires later == fs[1..][..|fs| - 2] + [fs[1..][|fs| - 2] + tail]
    ensures [fs[0]] + later == fs[..|fs| - 1] + [fs[|fs| - 1] + tail]
  {
    assert fs[1..][..|fs| - 2] == fs[1..|fs| - 1];
    assert fs[..|fs| - 1] == [fs[0]] + fs[1..|fs| - 1];
  }

  lemma NoDot(a: string, b: string)
    requires '.' !in a && '.' !in b
    ensures Split(a + b) == [a + b]
  {
    assert forall i :: 0 <= i < |a + b| ==> (a + b)[i] != '.';
  }

  /** The first dot ends the first field. */
  lemma SplitCons(a: string, rest: string)
    requires '.' !in a
    ensures Split(a + "." + rest) == [a] + Split(rest)
  {
    var s := a + "." + rest;
    assert s[|a|] == '.';
    var i := FirstIndex(s, '.');
    assert s[..i] == a;
    assert s[i + 1..] == rest;
  }

  /** A map of one room written as the letter of tile `t`, in either case, parses to that
      room holding `t` alone. */
  lemma SingleLetter(t: Tile, lower: bool)
    ensures var ch := if lower then (Letter(t) as int + 32) as char else Letter(t);
      ReadBoardData(["1\n", [ch]]) == Ok(BoardData(1, 1, [[[t]]]))
  {
    var ch := if lower then (Letter(t) as int + 32) as char else Letter(t);
    assert Strip("1\n") == "1" by {
      assert "1\n"[..1] == "1";
    }
    assert DigitsValue("1") == 1 by {
      assert "1"[..0] == "";
    }
    assert IntOf("1\n") == Ok(1);
    assert Upper(ch) == Letter(t);
    assert TileOf(ch) == Some(t);
    assert Split([ch]) == [[ch]];
    assert TilesOf([ch]) == [t] by {
      assert [ch][..0] == [];
    }
    var rows := [[ch]];
    assert ["1\n", [ch]][1..] == rows;
    assert FieldAt(rows, 0, 0) == [ch];
    assert !Overflows(rows, 1, 1);
    var r := ReadBoardData(["1\n", [ch]]);
    assert r.Ok? && r.value.tiles == seq(1, y requires 0 <= y < 1 => seq(1, x requires 0 <= x < 1 => TilesOf(FieldAt(rows, y, x))));
    assert r.value.tiles[0][0] == [t];
    assert r.value.tiles[0] == [[t]];
    assert r.value.tiles == [[[t]]];
    assert r.value.height == 1 && r.value.width == 1;
  }
}

=== FILE: bounds.dfy ===
/** `WorldView.set_bound` (lib/knowledge_base/world_view.py): after a bump, mark a whole
    rectangle of the belief grid as out of bounds. Each direction is two nested `range` loops
    writing `cells[i + 11][j + 11].is_oob = True`; the loops stop at the first index that
    raises, leaving the cells already written behind.

    As written, UP and DOWN sweep the FIRST list index (the room's x under `world[(x, y)]`)
    and LEFT and RIGHT the SECOND (its y), the opposite of the axes the bound belongs to;
    the model keeps those axes. */
module Bounds {
  import opened Basics
  import opened Cells
  import opened Actions
  import opened WorldViews

  /** The two nested loops of one case: the first index runs over [r0, r1), the second
      over [c0, c1), both as coordinates before the +11 shift. */
  datatype Sweep = Sweep(r0: int, r1: int, c0: int, c1: int)

  function SweepOf(d: Direction, v: int): Sweep {
    match d
    case Up => Sweep(-11, v - 1, -11, 10)
    case Right => Sweep(-11, 10, v + 1, 10)
    case Down => Sweep(v + 1, 10, -11, 10)
    case Left => Sweep(-11, 10, -11, v - 1)
  }

  /** `cells[c + 11]` does not raise. */
  predicate Indexable(c: int) {
    Slot(c).Some?
  }

  /** Whether some write of the sweep raises IndexError. */
  predicate Raises(s: Sweep) {
    && s.r0 < s.r1 && s.c0 < s.c1
    && !(Indexable(s.r0) && Indexable(s.r1 - 1) && Indexable(s.c0) && Indexable(s.c1 - 1))
  }

  /** The pair the loops stop at: the first one that raises, or (r1, c0) when none does. */
  function Stop(s: Sweep): (int, int) {
    if s.r0 >= s.r1 || s.c0 >= s.c1 || !Indexable(s.r0) || !Indexable(s.c0) then (s.r0, s.c0)
    else if !Indexable(s.c1 - 1) then (s.r0, Offset)
    else if !Indexable(s.r1 - 1) then (Offset, s.c0)
    else (s.r1, s.c0)
  }

  /** Pair (x, y) is written before the loops reach `stop`. */
  predicate Swept(s: Sweep, stop: (int, int), x: int, y: int) {
    && s.r0 <= x < s.r1 && s.c0 <= y < s.c1
    && (x < stop.0 || (x == stop.0 && y < stop.1))
  }

  /** Slot (a, b) is written by some swept pair; the only coordinates landing on list index
      a are a - 11 and, through the negative wrap, a - 33. */
  predicate Hit(s: Sweep, stop: (int, int), a: int, b: int) {
    || Swept(s, stop, a - 11, b - 11) || Swept(s, stop, a - 11, b - 33)
    || Swept(s, stop, a - 33, b - 11) || Swept(s, stop, a - 33, b - 33)
  }

  /** The grid once the loops have written every pair before `stop`. */
  function Blank(g: Grid, s: Sweep, stop: (int, int)): Grid {
    seq(Size, a requires 0 <= a < Size =>
      seq(Size, b requires 0 <= b < Size =>
        if Hit(s, stop, a, b) then SetOob(g[a][b], true) else g[a][b]))
  }

  /** `set_bound(direction, value)`: the grid it leaves behind, and IndexError when a write
      raised. */
  function SetBound(g: Grid, d: Direction, v: int): Step<Grid, ()> {
    var s := SweepOf(d, v);
    Step(Blank(g, s, Stop(s)), if Raises(s) then Err(IndexError) else Ok(()))
  }

  /** Two stops that sweep the same pairs leave the same grid. */
  lemma BlankSame(g: Grid, s: Sweep, st1: (int, int), st2: (int, int))
    requires forall x, y :: Swept(s, st1, x, y) == Swept(s, st2, x, y)
    ensures Blank(g, s, st1) == Blank(g, s, st2)
  {
    var b1, b2 := Blank(g, s, st1), Blank(g, s, st2);
    forall a | 0 <= a < Size ensures b1[a] == b2[a] {
      assert forall b :: 0 <= b < Size ==> b1[a][b] == b2[a][b];
    }
  }

  /** Before the first write the grid is untouched. */
  lemma BlankNone(g: Grid, s: Sweep, st: (int, int))
    requires forall x, y :: !Swept(s, st, x, y)
    ensures Blank(g, s, st) == g
  {
    var h := Blank(g, s, st);
    forall a | 0 <= a < Size ensures h[a] == g[a] {
      assert forall b :: 0 <= b < Size ==> h[a][b] == g[a][b];
    }
  }

  /** Writing pair (i, j) moves the stop one pair on. */
  lemma BlankStep(g: Grid, s: Sweep, i: int, j: int)
    requires s.r0 <= i < s.r1 && s.c0 <= j < s.c1 && InWindow((i, j))
    ensures var h := Blank(g, s, (i, j));
      Put(h, (i, j), SetOob(At(h, (i, j)), true)) == Blank(g, s, (i, j + 1))
  {
    var h := Blank(g, s, (i, j));
    var h1 := Put(h, (i, j), SetOob(At(h, (i, j)), true));
    var h2 := Blank(g, s, (i, j + 1));
    var (a0, b0) := SlotOf((i, j));
    forall a | 0 <= a < Size ensures h1[a] == h2[a] {
      forall b | 0 <= b < Size ensures h1[a][b] == h2[a][b] {
        if (a, b) != (a0, b0) {
          assert Hit(s, (i, j), a, b) == Hit(s, (i, j + 1), a, b);
        }
      }
    }
  }

  /** The loops of `set_bound`, as written: `for i in range(r0, r1): for j in range(c0, c1):
      cells[i + 11][j + 11].is_oob = True`. */
  method SetBoundLoop(g: Grid, d: Direction, v: int) returns (h: Grid, raised: bool)
    ensures h == SetBound(g, d, v).state
    ensures raised <==> SetBound(g, d, v).result.Err?
  {
    h, raised := SweepLoop(g, SweepOf(d, v));
  }

  /** One case's two loops, stopping at the first write that raises. */
  method SweepLoop(g: Grid, s: Sweep) returns (h: Grid, raised: bool)
    ensures h == Blank(g, s, Stop(s))
    ensures raised <==> Raises(s)
  {
    h := g;
    BlankNone(g, s, (s.r0, s.c0));
    var i := s.r0;
    while i < s.r1
      invariant s.r0 <= i && (s.r0 < s.r1 ==> i <= s.r1)
      invariant h == Blank(g, s, (i, s.c0))
      invariant i > s.r0 && s.c0 < s.c1 ==> -33 <= s.r0 && i <= 11 && -33 <= s.c0 && s.c1 <= 11
    {
      h, raised := SweepRow(g, s, h, i);
      if raised {
        return;
      }
      i := i + 1;
    }
    FinishStop(g, s, i);
    raised := false;
  }

  /** The inner loop for first index `i`: either it writes the whole row, or a write raises
      and the grid is the one `Stop` describes. */
  method SweepRow(g: Grid, s: Sweep, h0: Grid, i: int) returns (h: Grid, raised: bool)
    requires s.r0 <= i < s.r1 && h0 == Blank(g, s, (i, s.c0))
    requires i > s.r0 && s.c0 < s.c1 ==> -33 <= s.r0 && i <= 11 && -33 <= s.c0 && s.c1 <= 11
    ensures raised ==> Raises(s) && h == Blank(g, s, Stop(s))
    ensures !raised ==> h == Blank(g, s, (i + 1, s.c0))
    ensures !raised && s.c0 < s.c1 ==> -33 <= s.r0 && i + 1 <= 11 && -33 <= s.c0 && s.c1 <= 11
  {
    h := h0;
    var j := s.c0;
    while j < s.c1
      invariant s.c0 <= j && (s.c0 < s.c1 ==> j <= s.c1)
      invariant h == Blank(g, s, (i, j))
      invariant j > s.c0 ==> -33 <= s.c0 && j <= 11 && -33 <= i <= 10
    {
      IndexableRange(i);
      IndexableRange(j);
      if !Indexable(i) || !Indexable(j) {
        RaiseStop(s, i, j);
        return h, true;
      }
      BlankStep(g, s, i, j);
      h := Put(h, (i, j), SetOob(At(h, (i, j)), true));
      j := j + 1;
    }
    BlankSame(g, s, (i, j), (i + 1, s.c0));
    raised := false;
  }

  /** `cells[c + 11]` works exactly for c in -33..10. */
  lemma IndexableRange(c: int)
    ensures Indexable(c) <==> -33 <= c <= 10
  {
  }

  /** The first write that raises is the pair `Stop` names. */
  lemma RaiseStop(s: Sweep, i: int, j: int)
    requires s.r0 <= i < s.r1 && s.c0 <= j < s.c1
    requires i > s.r0 ==> -33 <= s.r0 && i <= 11 && -33 <= s.c0 && s.c1 <= 11
    requires j > s.c0 ==> -33 <= s.c0 && j <= 11 && -33 <= i <= 10
    requires !Indexable(i) || !Indexable(j)
    ensures Raises(s) && Stop(s) == (i, j)
  {
    IndexableRange(i);
    IndexableRange(j);
    IndexableRange(s.r0);
    IndexableRange(s.c0);
    IndexableRange(s.r1 - 1);
    IndexableRange(s.c1 - 1);
  }

  /** Loops that ran to the end raised nothing and wrote every pair. */
  lemma FinishStop(g: Grid, s: Sweep, i: int)
    requires s.r0 <= i && (s.r0 < s.r1 ==> i == s.r1) && i >= s.r1
    requires i > s.r0 && s.c0 < s.c1 ==> -33 <= s.r0 && i <= 11 && -33 <= s.c0 && s.c1 <= 11
    ensures !Raises(s)
    ensures Blank(g, s, (i, s.c0)) == Blank(g, s, Stop(s))
  {
    IndexableRange(s.r0);
    IndexableRange(s.c0);
    IndexableRange(s.r1 - 1);
    IndexableRange(s.c1 - 1);
    if s.r0 < s.r1 && s.c0 < s.c1 {
      assert Stop(s) == (s.r1, s.c0);
    } else {
      BlankNone(g, s, (i, s.c0));
      BlankNone(g, s, Stop(s));
    }
  }

  /** When `set_bound` raises: UP or LEFT past 12, DOWN or RIGHT below -34. */
  lemma SetBoundRaises(g: Grid, d: Direction, v: int)
    ensures SetBound(g, d, v).result.Err? <==>
      (if d == Up || d == Left then v >= 13 else v <= -35)
    ensures SetBound(g, d, v).result.Err? ==> SetBound(g, d, v).result.error == IndexError
  {
  }

  /** The rooms `set_bound(d, v)` blanks, read as `world[(x, y)]` coordinates: UP and DOWN
      bound the x coordinate, LEFT and RIGHT the y coordinate. */
  predicate InRegion(d: Direction, v: int, p: Coord) {
    match d
    case Up => -11 <= p.0 <= v - 2 && -11 <= p.1 <= 9
    case Down => v + 1 <= p.0 <= 9 && -11 <= p.1 <= 9
    case Right => -11 <= p.0 <= 9 && v + 1 <= p.1 <= 9
    case Left => -11 <= p.0 <= 9 && -11 <= p.1 <= v - 2
  }

  /** For a bound within the window, `set_bound` succeeds and blanks exactly the rooms of
      its rectangle; every other room is left as it was. */
  lemma SetBoundRegion(g: Grid, d: Direction, v: int, p: Coord)
    requires -12 <= v <= 12 && Canonical(p)
    ensures SetBound(g, d, v).result.Ok?
    ensures At(SetBound(g, d, v).state, p) ==
      if InRegion(d, v, p) then SetOob(At(g, p), true) else At(g, p)
  {
    CanonicalSlots(p, p);
    var s := SweepOf(d, v);
    var (a, b) := SlotOf(p);
    assert Hit(s, Stop(s), a, b) <==> Swept(s, Stop(s), p.0, p.1);
  }

  /** Blanking the same rectangle twice is the same as blanking it once. */
  lemma SetBoundIdempotent(g: Grid, d: Direction, v: int)
    ensures SetBound(SetBound(g, d, v).state, d, v) == SetBound(g, d, v)
  {
    var s := SweepOf(d, v);
    var h := Blank(g, s, Stop(s));
    var h2 := Blank(h, s, Stop(s));
    forall a | 0 <= a < Size ensures h2[a] == h[a] {
      assert forall b :: 0 <= b < Size ==> h2[a][b] == h[a][b];
    }
    assert h2 == h;
  }
}

=== FILE: cell.dfy ===
/** The belief the agent holds about one room (lib/knowledge_base/cell.py). Every attribute is
    four-valued; `safe` and `empty` are read-only views over the stored fields, and the
    setters of `wumpus`, `pit`, `safe`, `oob` and `glitter` write more than one field. */
module Cells {

  datatype CellValue = True | False | Maybe | Unknown

  datatype Cell = Cell(gold: CellValue, wumpus: CellValue, pit: CellValue,
                       stench: CellValue, breeze: CellValue)

  /** A room nothing is known about yet. */
  const Fresh: Cell := Cell(Unknown, Unknown, Unknown, Unknown, Unknown)

  /** `is_safe` read: neither a wumpus nor a pit is possible. */
  predicate IsSafe(c: Cell) {
    c.wumpus == False && c.pit == False
  }

  /** `is_empty` read: the room is known to carry neither stench nor breeze. */
  predicate IsEmpty(c: Cell) {
    c.breeze == False && c.stench == False
  }

  /** The invariant every setter keeps: a room is never confirmed to hold both hazards. */
  predicate Consistent(c: Cell) {
    !(c.wumpus == True && c.pit == True)
  }

  /** `is_wumpus` setter: a confirmed wumpus rules out a pit and gold in the same room. */
  function SetWumpus(c: Cell, v: CellValue): (r: Cell)
    ensures r.wumpus == v && r.stench == c.stench && r.breeze == c.breeze
    ensures v == True ==> r.pit == False && r.gold == False
    ensures v != True ==> r.pit == c.pit && r.gold == c.gold
    ensures Consistent(c) ==> Consistent(r)
  {
    if v == True then c.(wumpus := v, pit := False, gold := False) else c.(wumpus := v)
  }

  /** `is_pit` setter: a confirmed pit rules out a wumpus and gold in the same room. */
  function SetPit(c: Cell, v: CellValue): (r: Cell)
    ensures r.pit == v && r.stench == c.stench && r.breeze == c.breeze
    ensures v == True ==> r.wumpus == False && r.gold == False
    ensures v != True ==> r.wumpus == c.wumpus && r.gold == c.gold
    ensures Consistent(c) ==> Consistent(r)
  {
    if v == True then c.(pit := v, wumpus := False, gold := False) else c.(pit := v)
  }

  /** `is_safe` setter: true rules out both hazards, false is ignored. */
  function SetSafe(c: Cell, value: bool): (r: Cell)
    ensures value ==> IsSafe(r)
    ensures r.stench == c.stench && r.breeze == c.breeze && r.gold == c.gold
    ensures !value ==> r == c
    ensures Consistent(r) || !Consistent(c)
  {
    if value then SetPit(SetWumpus(c, False), False) else c
  }

  /** `is_oob` setter: a room outside the cave is known to hold and signal nothing. */
  function SetOob(c: Cell, value: bool): (r: Cell)
    ensures value ==> IsSafe(r) && IsEmpty(r) && r.gold == False
    ensures !value ==> r == c
  {
    if value then Cell(False, False, False, False, False) else c
  }

  /** `is_glitter` read: the gold field under another name. */
  function IsGlitter(c: Cell): CellValue {
    c.gold
  }

  /** `is_glitter` setter: anything but TRUE records that there is no gold. */
  function SetGlitter(c: Cell, v: CellValue): (r: Cell)
    ensures IsGlitter(r) == (if v == True then True else False)
    ensures r.wumpus == c.wumpus && r.pit == c.pit && r.stench == c.stench && r.breeze == c.breeze
  {
    c.(gold := if v == True then True else False)
  }

  /** The attributes a caller may assign by name. */
  datatype Attr = Gold | Wumpus | Pit | Stench | Breeze | Glitter | Safe | Oob

  /** `setattr(cell, attr, v)` with a CellValue `v`. The `safe` and `oob` setters test their
      argument for truth, and every CellValue member is truthy, so both always fire. */
  function SetAttr(c: Cell, a: Attr, v: CellValue): (r: Cell)
    ensures a == Stench ==> r == c.(stench := v)
    ensures a == Breeze ==> r == c.(breeze := v)
    ensures a == Gold ==> r == c.(gold := v)
    ensures a == Wumpus ==> r.wumpus == v
    ensures a == Pit ==> r.pit == v
    ensures a == Safe ==> IsSafe(r)
    ensures a == Oob ==> IsSafe(r) && IsEmpty(r)
    ensures Consistent(c) ==> Consistent(r)
  {
    match a
    case Gold => c.(gold := v)
    case Wumpus => SetWumpus(c, v)
    case Pit => SetPit(c, v)
    case Stench => c.(stench := v)
    case Breeze => c.(breeze := v)
    case Glitter => SetGlitter(c, v)
    case Safe => SetSafe(c, true)
    case Oob => SetOob(c, true)
  }

  /** The attributes `getattr` returns a CellValue for (`ask`). */
  datatype Field = GoldField | WumpusField | PitField | StenchField | BreezeField | GlitterField

  function Read(c: Cell, f: Field): CellValue {
    match f
    case GoldField => c.gold
    case WumpusField => c.wumpus
    case PitField => c.pit
    case StenchField => c.stench
    case BreezeField => c.breeze
    case GlitterField => IsGlitter(c)
  }

  /** A fresh cell knows nothing: every field reads UNKNOWN, so it is neither safe nor empty. */
  lemma FreshKnowsNothing(f: Field)
    ensures Read(Fresh, f) == Unknown
    ensures !IsSafe(Fresh) && !IsEmpty(Fresh) && Consistent(Fresh)
  {
  }

  /** Writing an attribute and reading it back through the matching field returns what was
      written, except that `glitter` collapses everything but TRUE to FALSE. */
  lemma SetThenRead(c: Cell, a: Attr, v: CellValue)
    requires a in {Gold, Wumpus, Pit, Stench, Breeze}
    ensures Read(SetAttr(c, a, v), match a
                                  case Gold => GoldField
                                  case Wumpus => WumpusField
                                  case Pit => PitField
                                  case Stench => StenchField
                                  case _ => BreezeField) == v
  {
  }

  /** The out-of-bounds setter is idempotent and swallows any earlier write. */
  lemma OobAbsorbs(c: Cell, a: Attr, v: CellValue)
    ensures SetOob(SetOob(c, true), true) == SetOob(c, true)
    ensures SetOob(SetAttr(c, a, v), true) == SetOob(c, true)
  {
  }
}

=== FILE: coord.dfy ===
/** The two coordinate frames of the game (lib/coord.py): Cartesian, with y growing
    upwards from the bottom row, and downward, with y growing downwards from the top row. */
module Coords {
  import opened Basics

  datatype Cartesian = Cartesian(x: int, y: int)

  datatype Downward = Downward(x: int, y: int)

  /** Row `y` counted from the other edge of a board `height` rows tall. */
  function Flip(height: int, y: int): int {
    height - y - 1
  }

  /** `CartesianCoord.to_downward(height)`. */
  function ToDownward(c: Cartesian, height: int): (r: Downward)
    ensures r.x == c.x
    ensures ToCartesian(r, height) == c
    ensures 0 <= c.y < height <==> 0 <= r.y < height
  {
    Downward(c.x, Flip(height, c.y))
  }

  /** `DownwardCoord.to_cartesian(height)`. */
  function ToCartesian(d: Downward, height: int): (r: Cartesian)
    ensures r.x == d.x
    ensures 0 <= d.y < height <==> 0 <= r.y < height
  {
    Cartesian(d.x, Flip(height, d.y))
  }

  /** Converting a downward coordinate to Cartesian and back returns it unchanged. */
  lemma DownwardRoundTrip(d: Downward, height: int)
    ensures ToDownward(ToCartesian(d, height), height) == d
  {
  }

  /** `iter(coord)` on either frame: x, then y. */
  function Components(x: int, y: int): seq<int> {
    [x, y]
  }

  /** `coord[index]` on either frame: x for 0, y for 1, and None (the method falls off its
      end) for any other index. */
  function Item(x: int, y: int, index: int): (r: Option<int>)
    ensures r.Some? <==> 0 <= index < |Components(x, y)|
    ensures r.Some? ==> r.value == Components(x, y)[index]
  {
    if index == 0 then Some(x)
    else if index == 1 then Some(y)
    else None
  }

  function CartesianItem(c: Cartesian, index: int): Option<int> {
    Item(c.x, c.y, index)
  }

  function DownwardItem(d: Downward, index: int): Option<int> {
    Item(d.x, d.y, index)
  }
}

=== FILE: knowledge_base.dfy ===
/** The knowledge-base facade (lib/knowledge_base/knowledge_base.py): the belief grid, the
    four bounds learned from bumps, `tell`, `ask`, and the `exit`, `safe_cells`,
    `wumpus_cells` and `pit_cells` queries. */
module KnowledgeBases {
  import opened Basics
  import opened Cells
  import opened Actions
  import opened WorldViews
  import opened Bounds
  import Sensors

  /** The bounds are only annotated in the class body, so they exist once a bump has
      assigned them; `None` stands for "not assigned yet". */
  datatype KB = KB(world: Grid, top: Option<int>, right: Option<int>, bottom: Option<int>, left: Option<int>)

  /** `KnowledgeBase()`. */
  function NewKB(): (kb: KB)
    ensures kb.top.None? && kb.right.None? && kb.bottom.None? && kb.left.None?
    ensures forall a, b :: 0 <= a < Size && 0 <= b < Size ==> kb.world[a][b] == Fresh
  {
    KB(NewWorld(), None, None, None, None)
  }

  /** The last action `tell` is given, as an (action, direction) pair. */
  datatype LastAction = LastAction(action: Action, direction: Direction)

  /** The coordinate a bump in direction `d` at (x, y) fixes: y for UP and DOWN, x for
      LEFT and RIGHT. */
  function BoundValue(d: Direction, x: int, y: int): int {
    if d == Up || d == Down then y else x
  }

  function RecordBound(kb: KB, d: Direction, v: int): KB {
    match d
    case Up => kb.(top := Some(v))
    case Right => kb.(right := Some(v))
    case Down => kb.(bottom := Some(v))
    case Left => kb.(left := Some(v))
  }

  /** The bound a direction sets. */
  function BoundOf(kb: KB, d: Direction): Option<int> {
    match d
    case Up => kb.top
    case Right => kb.right
    case Down => kb.bottom
    case Left => kb.left
  }

  /** The room made safe after a shot or a scream. As written, UP and DOWN name the room
      in the shot's direction but LEFT and RIGHT name the room behind the agent. */
  function ShotTarget(x: int, y: int, d: Direction): (t: Coord)
    ensures t in Neighbours((x, y))
  {
    match d
    case Up => (x, y + 1)
    case Down => (x, y - 1)
    case Left => (x + 1, y)
    case Right => (x - 1, y)
  }

  function Truth(b: bool): CellValue {
    if b then True else False
  }

  /** The three direct writes `tell` makes to the current room. */
  function Observe(c: Cell, percept: Sensors.Percepts): (r: Cell)
    ensures r.stench == Truth(percept.stench) && r.breeze == Truth(percept.breeze)
    ensures IsGlitter(r) == Truth(percept.glitter)
    ensures r.wumpus == c.wumpus && r.pit == c.pit
  {
    SetGlitter(c.(stench := Truth(percept.stench), breeze := Truth(percept.breeze)), Truth(percept.glitter))
  }

  /** The bump branch of `tell`. The bound is assigned and its rectangle blanked, then
      `res.update` is handed the `None` that `set_bound` returns and raises TypeError; a
      bump never completes. */
  function TellBump(kb: KB, x: int, y: int, action: Option<LastAction>): (r: Step<KB, set<Coord>>)
    ensures r.result.Err?
    ensures action.None? ==> r == Step(kb, Err(NoActionForBump))
    ensures action.Some? ==>
      var d := action.value.direction;
      var s := SetBound(kb.world, d, BoundValue(d, x, y));
      && BoundOf(r.state, d) == Some(BoundValue(d, x, y))
      && (forall e :: e != d ==> BoundOf(r.state, e) == BoundOf(kb, e))
      && r.state.world == s.state
      && r.result.error == (if s.result.Err? then IndexError else TypeError)
  {
    if action.None? then Step(kb, Err(NoActionForBump))
    else
      var d := action.value.direction;
      var v := BoundValue(d, x, y);
      var kb1 := RecordBound(kb, d, v);
      var s := SetBound(kb1.world, d, v);
      Step(kb1.(world := s.state), Err(if s.result.Err? then s.result.error else TypeError))
  }

  /** Whether `tell` clears a room for this action: only when there is one, and it is a
      shot or a scream was heard. */
  predicate Shot(percept: Sensors.Percepts, action: Option<LastAction>) {
    action.Some? && (percept.scream || action.value.action == Shoot)
  }

  /** The shot-clearing branch of `tell`. */
  function ShotClear(g: Grid, x: int, y: int, percept: Sensors.Percepts, action: Option<LastAction>): Step<Grid, set<Coord>> {
    if !Shot(percept, action) then Step(g, Ok({}))
    else
      var t := ShotTarget(x, y, action.value.direction);
      if !InWindow(t) then Step(g, Err(IndexError))
      else Step(Put(g, t, SetSafe(At(g, t), true)), Ok({t}))
  }

  /** `tell(x, y, percept, action)`: returns the rooms it reports as changed. */
  function Tell(kb: KB, x: int, y: int, percept: Sensors.Percepts, action: Option<LastAction>): (r: Step<KB, set<Coord>>)
    ensures percept.bump ==> r.result.Err?
    ensures !percept.bump ==> BoundOf(r.state, Up) == kb.top && BoundOf(r.state, Down) == kb.bottom
                              && BoundOf(r.state, Left) == kb.left && BoundOf(r.state, Right) == kb.right
    ensures r.result.Ok? ==> (x, y) in r.result.value && r.result.value <= {(x, y)} + Neighbours((x, y))
    ensures r.result.Ok? <==>
      !percept.bump && InWindow((x, y)) && (Shot(percept, action) ==> InWindow(ShotTarget(x, y, action.value.direction)))
  {
    if percept.bump then TellBump(kb, x, y, action)
    else
      var s := ShotClear(kb.world, x, y, percept, action);
      if s.result.Err? then Step(kb.(world := s.state), Err(s.result.error))
      else if !InWindow((x, y)) then Step(kb.(world := s.state), Err(IndexError))
      else
        var w := Put(s.state, (x, y), Observe(At(s.state, (x, y)), percept));
        Step(kb.(world := w), Ok(s.result.value + {(x, y)}))
  }

  /** `ask(x, y, attribute)` for the attributes that hold a CellValue. */
  function Ask(kb: KB, x: int, y: int, f: Field): (r: Result<CellValue>)
    ensures r.Ok? <==> InWindow((x, y))
    ensures r.Err? ==> r.error == IndexError
  {
    match Get(kb.world, (x, y))
    case Ok(c) => Ok(Read(c, f))
    case Err(e) => Err(e)
  }

  /** `exit`: the bottom-left corner once both the left and the bottom bound are known.
      Reading a bound that was never assigned raises AttributeError; an assigned bound is
      always an int, so the `!= None` tests never fail. */
  function Exit(kb: KB): (r: Result<Coord>)
    ensures r.Ok? <==> kb.left.Some? && kb.bottom.Some?
    ensures r.Ok? ==> r.value.0 == kb.left.value && r.value.1 == kb.bottom.value
    ensures r.Err? ==> r.error == AttributeError
  {
    match kb.left
    case None => Err(AttributeError)
    case Some(left) =>
      match kb.bottom
      case None => Err(AttributeError)
      case Some(bottom) => Ok((left, bottom))
  }

  /** The neighbour index (in `kx`/`ky` order) of the room a shot clears. */
  lemma ShotTargetIsNeighbour(x: int, y: int, d: Direction)
    ensures ShotTarget(x, y, d) == Neighbour((x, y), match d case Left => 0 case Right => 1 case Up => 2 case Down => 3)
  {
  }

  /** After a completed `tell`, `ask` reads back the stench, breeze and glitter percepts as
      TRUE or FALSE. */
  lemma TellThenAsk(kb: KB, x: int, y: int, percept: Sensors.Percepts, action: Option<LastAction>)
    requires Tell(kb, x, y, percept, action).result.Ok?
    ensures var kb1 := Tell(kb, x, y, percept, action).state;
      && Ask(kb1, x, y, StenchField) == Ok(Truth(percept.stench))
      && Ask(kb1, x, y, BreezeField) == Ok(Truth(percept.breeze))
      && Ask(kb1, x, y, GlitterField) == Ok(Truth(percept.glitter))
  {
  }

  /** Without a bump and without a shot or scream, `tell` changes room (x, y) only, keeps
      what it believed about hazards there, and reports just that room. */
  lemma TellQuiet(kb: KB, x: int, y: int, percept: Sensors.Percepts, action: Option<LastAction>)
    requires !percept.bump && !Shot(percept, action) && InWindow((x, y))
    ensures var r := Tell(kb, x, y, percept, action);
      && r.result == Ok({(x, y)})
      && At(r.state.world, (x, y)) == Observe(At(kb.world, (x, y)), percept)
      && forall a, b :: 0 <= a < Size && 0 <= b < Size && (a, b) != SlotOf((x, y)) ==> r.state.world[a][b] == kb.world[a][b]
  {
    assert {} + {(x, y)} == {(x, y)};
  }

  /** After a shot or a scream, `tell` makes exactly one more room safe, hit or miss, and
      reports it along with (x, y); no other room changes. */
  lemma TellShot(kb: KB, x: int, y: int, percept: Sensors.Percepts, a: LastAction)
    requires !percept.bump && Shot(percept, Some(a))
    requires InWindow((x, y)) && InWindow(ShotTarget(x, y, a.direction))
    ensures var r := Tell(kb, x, y, percept, Some(a));
      var t := ShotTarget(x, y, a.direction);
      && r.result == Ok({t, (x, y)})
      && At(r.state.world, t) == SetSafe(At(kb.world, t), true)
      && IsSafe(At(r.state.world, t))
      && forall a, b :: 0 <= a < Size && 0 <= b < Size && (a, b) != SlotOf((x, y)) && (a, b) != SlotOf(t)
           ==> r.state.world[a][b] == kb.world[a][b]
  {
    var t := ShotTarget(x, y, a.direction);
    ShotTargetIsNeighbour(x, y, a.direction);
    var i := match a.direction case Left => 0 case Right => 1 case Up => 2 case Down => 3;
    NeighbourSlotsDistinct((x, y), i, i);
    var g1 := Put(kb.world, t, SetSafe(At(kb.world, t), true));
    assert ShotClear(kb.world, x, y, percept, Some(a)) == Step(g1, Ok({t}));
    var w := Put(g1, (x, y), Observe(At(g1, (x, y)), percept));
    assert Tell(kb, x, y, percept, Some(a)) == Step(kb.(world := w), Ok({t} + {(x, y)}));
    assert {t} + {(x, y)} == {t, (x, y)};
    assert At(w, t) == At(g1, t);
  }

  /** Once a LEFT bump and a DOWN bump have been told, in either order, `exit` is the
      corner they fix. */
  lemma ExitAfterBumps(kb: KB, x1: int, y1: int, p1: Sensors.Percepts, a1: LastAction,
                       x2: int, y2: int, p2: Sensors.Percepts, a2: LastAction)
    requires p1.bump && p2.bump && {a1.direction, a2.direction} == {Left, Down}
    ensures var kb2 := Tell(Tell(kb, x1, y1, p1, Some(a1)).state, x2, y2, p2, Some(a2)).state;
      Exit(kb2) == Ok(if a1.direction == Left then (x1, y2) else (x2, y1))
  {
    var kb1 := Tell(kb, x1, y1, p1, Some(a1)).state;
    assert BoundOf(kb1, a1.direction) == Some(BoundValue(a1.direction, x1, y1));
    var kb2 := Tell(kb1, x2, y2, p2, Some(a2)).state;
    assert BoundOf(kb2, a2.direction) == Some(BoundValue(a2.direction, x2, y2));
    assert BoundOf(kb2, a1.direction) == BoundOf(kb1, a1.direction);
  }

  /** Before any bump, reading `exit` raises. */
  lemma NoExitYet()
    ensures Exit(NewKB()) == Err(AttributeError)
  {
  }
}

=== FILE: map_generator.dfy ===
/** The reachability test the map generator runs after placing each pit
    (lib/game/map_generator.py): a breadth-first search over pit-free rooms from the agent's
    start to the exit room. The map is indexed `map[y][x]` with y growing downwards, so the
    exit (0, 0) of the game sits at x = 0, y = len(map) - 1. */
module MapGenerator {
  import opened Basics
  import opened Tiles

  /** A generated map: rows of rooms, each holding a set of tiles. */
  type Map = seq<seq<set<Tile>>>

  predicate Rectangular(m: Map) {
    |m| > 0 && forall y :: 0 <= y < |m| ==> |m[y]| == |m[0]|
  }

  predicate InMap(m: Map, c: Coord)
    requires Rectangular(m)
  {
    0 <= c.1 < |m| && 0 <= c.0 < |m[0]|
  }

  /** A room the search may enter: inside the map and without a pit. */
  predicate Free(m: Map, c: Coord)
    requires Rectangular(m)
  {
    InMap(m, c) && Pit !in m[c.1][c.0]
  }

  /** The four rooms orthogonally adjacent to `c`. */
  function Steps(c: Coord): set<Coord> {
    {(c.0 - 1, c.1), (c.0 + 1, c.1), (c.0, c.1 - 1), (c.0, c.1 + 1)}
  }

  /** The bottom-left room, where the agent climbs out. */
  function ExitRoom(m: Map): Coord {
    (0, |m| - 1)
  }

  /** A walk through pit-free rooms, each step to an orthogonal neighbour. */
  predicate IsPath(m: Map, p: seq<Coord>)
    requires Rectangular(m)
  {
    |p| > 0
    && (forall i :: 0 <= i < |p| ==> Free(m, p[i]))
    && (forall i :: 0 < i < |p| ==> p[i] in Steps(p[i - 1]))
  }

  /** Some pit-free walk leads from `s` to `t`. */
  ghost predicate Reachable(m: Map, s: Coord, t: Coord)
    requires Rectangular(m)
  {
    exists p :: IsPath(m, p) && p[0] == s && p[|p| - 1] == t
  }

  /** One more step through a free room extends a walk. */
  lemma ReachStep(m: Map, s: Coord, c: Coord, n: Coord)
    requires Rectangular(m) && Reachable(m, s, c) && Free(m, n) && n in Steps(c)
    ensures Reachable(m, s, n)
  {
    var p :| IsPath(m, p) && p[0] == s && p[|p| - 1] == c;
    var q := p + [n];
    assert IsPath(m, q);
    assert q[0] == s && q[|q| - 1] == n;
  }

  /** A set of rooms that holds every free neighbour of its members holds the whole of any
      walk that starts in it. */
  lemma {:induction false} ClosedHoldsPath(m: Map, visited: set<Coord>, p: seq<Coord>)
    requires Rectangular(m) && IsPath(m, p) && p[0] in visited
    requires forall c, n :: c in visited && n in Steps(c) && Free(m, n) ==> n in visited
    ensures p[|p| - 1] in visited
  {
    if |p| > 1 {
      var init := p[..|p| - 1];
      assert IsPath(m, init) by {
        forall i | 0 < i < |init|
          ensures init[i] in Steps(init[i - 1])
        {
          assert init[i] == p[i] && init[i - 1] == p[i - 1];
        }
      }
      ClosedHoldsPath(m, visited, init);
      assert p[|p| - 1] in Steps(p[|p| - 2]);
    }
  }

  /** All rooms of the map, the bound on what the search can visit. */
  function AllRooms(m: Map): (r: set<Coord>)
    requires Rectangular(m)
    ensures forall c :: InMap(m, c) <==> c in r
  {
    set y, x | 0 <= y < |m| && 0 <= x < |m[0]| :: (x, y)
  }

  /** The neighbours one expansion of `c` appends to the queue, in the order the search
      tries them: left, right, up the rows, down the rows. Only rooms inside the map and
      without a pit are queued; for a room inside the map, the guards `x > 0`,
      `x < len(map[0]) - 1`, `y > 0` and `y < len(map) - 1` are exactly the test that the
      neighbour is inside it too. */
  function Expand(m: Map, c: Coord): (r: seq<Coord>)
    requires Rectangular(m) && InMap(m, c)
    ensures forall n :: n in r <==> n in Steps(c) && Free(m, n)
  {
    var (x, y) := c;
    var a, b, d, e := Enqueue(m, (x - 1, y)), Enqueue(m, (x + 1, y)), Enqueue(m, (x, y - 1)), Enqueue(m, (x, y + 1));
    assert forall n :: n in a + b + d + e <==> n in a || n in b || n in d || n in e;
    a + b + d + e
  }

  /** `queue.append(n)` when `n` may be entered. */
  function Enqueue(m: Map, n: Coord): seq<Coord>
    requires Rectangular(m)
  {
    if Free(m, n) then [n] else []
  }

  /** Every queued room is free and reachable from the start. */
  ghost predicate Sound(m: Map, s: Coord, queue: seq<Coord>)
    requires Rectangular(m)
  {
    forall i :: 0 <= i < |queue| ==> Free(m, queue[i]) && Reachable(m, s, queue[i])
  }

  /** Every visited room is free and reachable from the start. */
  ghost predicate SoundSet(m: Map, s: Coord, visited: set<Coord>)
    requires Rectangular(m)
  {
    forall c :: c in visited ==> Free(m, c) && Reachable(m, s, c)
  }

  /** No walk leaves a room holding a pit. */
  lemma PitStart(m: Map, s: Coord, t: Coord)
    requires Rectangular(m) && InMap(m, s) && Pit in m[s.1][s.0]
    ensures !Reachable(m, s, t)
  {
  }

  /** A free exit room is reached from itself. */
  lemma ExitFromExit(m: Map)
    requires Rectangular(m) && Free(m, ExitRoom(m))
    ensures Reachable(m, ExitRoom(m), ExitRoom(m))
  {
    assert IsPath(m, [ExitRoom(m)]);
  }

  /** Once the queue is exhausted, a closed visited set that holds the start but not the
      exit shows that no walk leads out. */
  lemma Unreachable(m: Map, s: Coord, visited: set<Coord>)
    requires Rectangular(m) && s in visited && ExitRoom(m) !in visited && Closed(m, visited, [])
    ensures !Reachable(m, s, ExitRoom(m))
  {
    if Reachable(m, s, ExitRoom(m)) {
      var p :| IsPath(m, p) && p[0] == s && p[|p| - 1] == ExitRoom(m);
      ClosedHoldsPath(m, visited, p);
    }
  }

  /** Every free neighbour of a visited room is visited or still queued. */
  predicate Closed(m: Map, visited: set<Coord>, queue: seq<Coord>)
    requires Rectangular(m)
  {
    forall c, n :: c in visited && n in Steps(c) && Free(m, n) ==> n in visited || n in queue
  }

  /** Expanding the head of a sound queue keeps it sound. */
  lemma SoundExpand(m: Map, s: Coord, queue: seq<Coord>)
    requires Rectangular(m) && |queue| > 0 && Sound(m, s, queue)
    ensures Sound(m, s, queue[1..] + Expand(m, queue[0]))
  {
    var c := queue[0];
    var next := Expand(m, c);
    var q := queue[1..] + next;
    forall i | 0 <= i < |q|
      ensures Free(m, q[i]) && Reachable(m, s, q[i])
    {
      if i < |queue| - 1 {
        assert q[i] == queue[i + 1];
      } else {
        assert q[i] == next[i - |queue| + 1];
        ReachStep(m, s, c, q[i]);
      }
    }
  }

  /** Dropping a head that was already visited keeps the closure. */
  lemma ClosedSkip(m: Map, visited: set<Coord>, queue: seq<Coord>)
    requires Rectangular(m) && |queue| > 0 && queue[0] in visited && Closed(m, visited, queue)
    ensures Closed(m, visited, queue[1..])
  {
    forall c, n | c in visited && n in Steps(c) && Free(m, n) && n !in visited
      ensures n in queue[1..]
    {
      assert n in queue;
      var i :| 0 <= i < |queue| && queue[i] == n;
      assert i > 0;
      assert queue[1..][i - 1] == n;
    }
  }

  /** Visiting the head and queueing its free neighbours keeps the closure. */
  lemma ClosedVisit(m: Map, visited: set<Coord>, queue: seq<Coord>)
    requires Rectangular(m) && |queue| > 0 && InMap(m, queue[0]) && Closed(m, visited, queue)
    ensures Closed(m, visited + {queue[0]}, queue[1..] + Expand(m, queue[0]))
  {
    var h := queue[0];
    var q := queue[1..] + Expand(m, h);
    forall c, n | c in visited + {h} && n in Steps(c) && Free(m, n) && n !in visited + {h}
      ensures n in q
    {
      if c == h {
        assert n in Expand(m, h);
      } else {
        assert n in queue;
        var i :| 0 <= i < |queue| && queue[i] == n;
        assert i > 0;
        assert q[i - 1] == n;
      }
    }
  }

  /** What the search knows between two iterations. */
  ghost predicate Searching(m: Map, s: Coord, visited: set<Coord>, queue: seq<Coord>)
    requires Rectangular(m)
  {
    && Sound(m, s, queue)
    && SoundSet(m, s, visited)
    && (s in visited || s in queue)
    && ExitRoom(m) !in visited
    && Closed(m, visited, queue)
  }

  /** Popping a head already visited keeps the search state. */
  lemma SearchSkip(m: Map, s: Coord, visited: set<Coord>, queue: seq<Coord>)
    requires Rectangular(m) && |queue| > 0 && queue[0] in visited && Searching(m, s, visited, queue)
    ensures Searching(m, s, visited, queue[1..])
  {
    ClosedSkip(m, visited, queue);
    forall i | 0 <= i < |queue| - 1 ensures queue[1..][i] == queue[i + 1] { }
    if s !in visited {
      assert s != queue[0];
      assert s in queue[1..];
    }
  }

  /** Visiting a new head that is not the exit keeps the search state and leaves fewer
      rooms unvisited. */
  lemma SearchVisit(m: Map, s: Coord, visited: set<Coord>, queue: seq<Coord>)
    requires Rectangular(m) && |queue| > 0 && queue[0] !in visited && queue[0] != ExitRoom(m)
    requires Searching(m, s, visited, queue)
    ensures Searching(m, s, visited + {queue[0]}, queue[1..] + Expand(m, queue[0]))
    ensures |AllRooms(m) - (visited + {queue[0]})| < |AllRooms(m) - visited|
  {
    var c := queue[0];
    SoundExpand(m, s, queue);
    ClosedVisit(m, visited, queue);
    assert AllRooms(m) - visited == (AllRooms(m) - (visited + {c})) + {c};
    if s !in visited && s != c {
      assert s in queue[1..];
      assert (queue[1..] + Expand(m, c))[..|queue| - 1] == queue[1..];
    }
  }

  /** `_check_have_path_to_exit(map, x, y)`. */
  method HasPathToExit(m: Map, x: int, y: int) returns (found: bool)
    requires Rectangular(m) && 0 <= y < |m| && 0 <= x < |m[0]|
    ensures found <==> Reachable(m, (x, y), ExitRoom(m))
  {
    var start := (x, y);
    if Pit in m[y][x] {
      PitStart(m, start, ExitRoom(m));
      return false;
    }
    assert Reachable(m, start, start) by {
      assert IsPath(m, [start]);
    }
    var queue := [start];
    var visited: set<Coord> := {};
    while |queue| > 0
      invariant Searching(m, start, visited, queue)
      decreases |AllRooms(m) - visited|, |queue|
    {
      var c := queue[0];
      if c in visited {
        SearchSkip(m, start, visited, queue);
        queue := queue[1..];
        continue;
      }
      if c.0 == 0 && c.1 == |m| - 1 {
        return true;
      }
      SearchVisit(m, start, visited, queue);
      visited := visited + {c};
      queue := queue[1..] + Expand(m, c);
    }
    Unreachable(m, start, visited);
    return false;
  }
}

=== FILE: percepts.dfy ===
/** The five percept flags (lib/percepts.py), stored as a list of five booleans in the order
    stench, breeze, glitter, bump, scream and read and written by name. */
module Sensors {
  import opened Basics

  datatype Percepts = Percepts(stench: bool, breeze: bool, glitter: bool, bump: bool, scream: bool)

  /** `Percepts()`: nothing sensed. */
  const NoPercepts: Percepts := Percepts(false, false, false, false, false)

  datatype Flag = StenchFlag | BreezeFlag | GlitterFlag | BumpFlag | ScreamFlag

  /** The name each flag is read and written under. */
  function NameOf(f: Flag): string {
    match f
    case StenchFlag => "stench"
    case BreezeFlag => "breeze"
    case GlitterFlag => "glitter"
    case BumpFlag => "bump"
    case ScreamFlag => "scream"
  }

  /** The flag a name selects; the `if`/`elif` chain tests the names in list order. */
  function FlagNamed(name: string): (r: Option<Flag>)
    ensures r.Some? ==> NameOf(r.value) == name
    ensures r.None? ==> forall f :: NameOf(f) != name
  {
    if name == "stench" then Some(StenchFlag)
    else if name == "breeze" then Some(BreezeFlag)
    else if name == "glitter" then Some(GlitterFlag)
    else if name == "bump" then Some(BumpFlag)
    else if name == "scream" then Some(ScreamFlag)
    else None
  }

  function Read(p: Percepts, f: Flag): bool {
    match f
    case StenchFlag => p.stench
    case BreezeFlag => p.breeze
    case GlitterFlag => p.glitter
    case BumpFlag => p.bump
    case ScreamFlag => p.scream
  }

  /** `percepts[name]`. */
  function Get(p: Percepts, name: string): (r: Result<bool>)
    ensures r.Ok? <==> FlagNamed(name).Some?
    ensures r.Ok? ==> r.value == Read(p, FlagNamed(name).value)
    ensures r.Err? ==> r.error == UnknownPercept(name)
  {
    match FlagNamed(name)
    case Some(f) => Ok(Read(p, f))
    case None => Err(UnknownPercept(name))
  }

  /** `percepts[name] = value`: the named flag now reads `value` and the other four read as
      before; an unknown name raises. */
  function Set(p: Percepts, name: string, value: bool): (r: Result<Percepts>)
    ensures r.Ok? <==> FlagNamed(name).Some?
    ensures r.Ok? ==> forall f :: Read(r.value, f) == if f == FlagNamed(name).value then value else Read(p, f)
    ensures r.Err? ==> r.error == UnknownPercept(name)
  {
    match FlagNamed(name)
    case Some(StenchFlag) => Ok(p.(stench := value))
    case Some(BreezeFlag) => Ok(p.(breeze := value))
    case Some(GlitterFlag) => Ok(p.(glitter := value))
    case Some(BumpFlag) => Ok(p.(bump := value))
    case Some(ScreamFlag) => Ok(p.(scream := value))
    case None => Err(UnknownPercept(name))
  }

  /** Every flag's own name selects it, so each flag can be read and written by name. */
  lemma NamesSelect(f: Flag)
    ensures FlagNamed(NameOf(f)) == Some(f)
  {
  }

  /** A fresh record reads false under every name. */
  lemma NothingSensed(f: Flag)
    ensures Get(NoPercepts, NameOf(f)) == Ok(false)
  {
    NamesSelect(f);
  }
}

=== FILE: queries.dfy ===
/** The aggregate queries of the knowledge base (lib/knowledge_base/knowledge_base.py):
    `safe_cells`, `wumpus_cells` and `pit_cells`, modelled as the full scan of the 22 x 22
    list they evidently intend, slot (i, j) reported as room (i - 11, j - 11), plus the
    scan exactly as written, which re-applies the +11 shift and always raises. */
module Queries {
  import opened Basics
  import opened Cells
  import opened WorldViews
  import opened KnowledgeBases

  /** Number of slots the scan visits. */
  const SlotCount: nat := Size * Size

  /** The room of the k-th slot in scan order: row by row, so the first `Size` slots are
      row -11 and every further `Size` slots move one row on. */
  function ScanRoom(k: nat): Coord
    decreases k
  {
    if k < Size then (-Offset, k - Offset)
    else
      var above := ScanRoom(k - Size);
      (above.0 + 1, above.1)
  }

  /** Where a room lies in scan order. */
  function ScanIndex(p: Coord): int {
    (p.0 + Offset) * Size + (p.1 + Offset)
  }

  lemma ScanRoomFacts(k: nat, p: Coord)
    requires k < SlotCount
    ensures Canonical(ScanRoom(k)) && ScanIndex(ScanRoom(k)) == k
    ensures Canonical(p) && ScanIndex(p) == k ==> p == ScanRoom(k)
    ensures Canonical(p) ==> 0 <= ScanIndex(p) < SlotCount
  {
    ScanRoomRows(k);
  }

  /** Slot k's room lies in a row at or below -11, in a column of the window, and is
      indexed back to k. */
  lemma {:induction false} ScanRoomRows(k: nat)
    decreases k
    ensures -Offset <= ScanRoom(k).0 && -Offset <= ScanRoom(k).1 < Size - Offset
    ensures ScanIndex(ScanRoom(k)) == k
  {
    if k >= Size {
      ScanRoomRows(k - Size);
    }
  }

  /** Every slot's room can be indexed. */
  lemma ScanRoomInWindow(k: nat)
    requires k < SlotCount
    ensures InWindow(ScanRoom(k))
  {
    ScanRoomFacts(k, ScanRoom(k));
  }

  /** `safe_cells` over the first k slots: every room whose `is_safe` reads true, in scan
      order. */
  function SafeScan(g: Grid, k: nat): seq<Coord>
    requires k <= SlotCount
  {
    if k == 0 then []
    else
      var p := ScanRoom(k - 1);
      ScanRoomInWindow(k - 1);
      SafeScan(g, k - 1) + (if IsSafe(At(g, p)) then [p] else [])
  }

  /** Python's `list.insert(-1, x)`: before the last element, or alone in an empty list. */
  function InsertBeforeLast<T>(s: seq<T>, x: T): (r: seq<T>)
    ensures |r| == |s| + 1
  {
    if |s| == 0 then [x] else s[..|s| - 1] + [x] + [s[|s| - 1]]
  }

  /** The insertion adds exactly one element, `x`, and keeps every other one. */
  lemma InsertBeforeLastCounts<T>(s: seq<T>, x: T)
    ensures multiset(InsertBeforeLast(s, x)) == multiset(s) + multiset{x}
  {
    if |s| > 0 {
      assert s == s[..|s| - 1] + [s[|s| - 1]];
    }
  }

  /** `wumpus_cells` / `pit_cells` over the first k slots: a TRUE room is inserted at the
      front, a MAYBE room just before the last entry. */
  function HazardScan(g: Grid, h: Hazard, k: nat): seq<(Coord, CellValue)>
    requires k <= SlotCount
  {
    if k == 0 then []
    else
      var p := ScanRoom(k - 1);
      ScanRoomInWindow(k - 1);
      var rest := HazardScan(g, h, k - 1);
      var v := HazardOf(At(g, p), h);
      if v == True then [(p, True)] + rest
      else if v == Maybe then InsertBeforeLast(rest, (p, Maybe))
      else rest
  }

  function SafeCells(kb: KB): seq<Coord> {
    SafeScan(kb.world, SlotCount)
  }

  function WumpusCells(kb: KB): seq<(Coord, CellValue)> {
    HazardScan(kb.world, WumpusHazard, SlotCount)
  }

  function PitCells(kb: KB): seq<(Coord, CellValue)> {
    HazardScan(kb.world, PitHazard, SlotCount)
  }

  lemma {:induction false} SafeScanMembers(g: Grid, k: nat, p: Coord)
    requires k <= SlotCount
    ensures p in SafeScan(g, k) <==> Canonical(p) && ScanIndex(p) < k && IsSafe(At(g, p))
  {
    if k > 0 {
      SafeScanMembers(g, k - 1, p);
      SafeScanUnfold(g, k, p);
      ScanChain(p in SafeScan(g, k), p in SafeScan(g, k - 1), Canonical(p), ScanIndex(p), k,
        Canonical(p) && IsSafe(At(g, p)));
    }
  }

  /** Slot k - 1 holds the canonical room whose scan index is k - 1. */
  lemma ScanRoomIs(k: nat, p: Coord)
    requires 0 < k <= SlotCount
    ensures InWindow(ScanRoom(k - 1))
    ensures p == ScanRoom(k - 1) <==> Canonical(p) && ScanIndex(p) == k - 1
  {
    ScanRoomFacts(k - 1, p);
  }

  lemma SafeScanUnfold(g: Grid, k: nat, p: Coord)
    requires 0 < k <= SlotCount
    ensures p in SafeScan(g, k) <==>
      p in SafeScan(g, k - 1) || (Canonical(p) && ScanIndex(p) == k - 1 && IsSafe(At(g, p)))
  {
    ScanRoomIs(k, p);
  }

  /** One step of the scan: a room is among the first k slots' entries exactly when it is
      among the first k - 1 slots' entries or sits in slot k - 1. */
  lemma ScanChain(inK: bool, inPrev: bool, c: bool, i: int, k: int, w: bool)
    requires inK == (inPrev || (c && i == k - 1 && w))
    requires inPrev == (c && i < k - 1 && w)
    ensures inK == (c && i < k && w)
  {
  }

  lemma {:induction false} HazardScanMembers(g: Grid, h: Hazard, k: nat, p: Coord, v: CellValue)
    requires k <= SlotCount
    ensures (p, v) in HazardScan(g, h, k) <==>
      Canonical(p) && ScanIndex(p) < k && v in {True, Maybe} && HazardOf(At(g, p), h) == v
  {
    if k > 0 {
      HazardScanMembers(g, h, k - 1, p, v);
      HazardScanUnfold(g, h, k, p, v);
      var wanted := Canonical(p) && v in {True, Maybe} && HazardOf(At(g, p), h) == v;
      ScanChain((p, v) in HazardScan(g, h, k), (p, v) in HazardScan(g, h, k - 1), Canonical(p),
        ScanIndex(p), k, wanted);
    }
  }

  lemma HazardScanUnfold(g: Grid, h: Hazard, k: nat, p: Coord, v: CellValue)
    requires 0 < k <= SlotCount
    ensures (p, v) in HazardScan(g, h, k) <==>
      (p, v) in HazardScan(g, h, k - 1)
      || (Canonical(p) && ScanIndex(p) == k - 1 && v in {True, Maybe} && HazardOf(At(g, p), h) == v)
  {
    ScanRoomIs(k, p);
    var q := ScanRoom(k - 1);
    var rest := HazardScan(g, h, k - 1);
    var w := HazardOf(At(g, q), h);
    if w == True {
      assert HazardScan(g, h, k) == [(q, True)] + rest;
    } else if w == Maybe {
      assert HazardScan(g, h, k) == InsertBeforeLast(rest, (q, Maybe));
      InsertBeforeLastHas(rest, (q, Maybe), (p, v));
    } else {
      assert HazardScan(g, h, k) == rest;
    }
  }

  lemma InsertBeforeLastHas<T>(s: seq<T>, x: T, y: T)
    ensures y in InsertBeforeLast(s, x) <==> y in s || y == x
  {
    InsertBeforeLastCounts(s, x);
    assert y in InsertBeforeLast(s, x) <==> y in multiset(InsertBeforeLast(s, x));
    assert y in s <==> y in multiset(s);
  }

  /** Rooms listed in strictly increasing scan order, so each at most once. */
  predicate InScanOrder(s: seq<Coord>) {
    forall i, j :: 0 <= i < j < |s| ==> ScanIndex(s[i]) < ScanIndex(s[j])
  }

  /** The scan lists rooms in scan order. */
  lemma {:induction false} SafeScanOrdered(g: Grid, k: nat)
    requires k <= SlotCount
    ensures InScanOrder(SafeScan(g, k))
  {
    if k > 0 {
      SafeScanOrdered(g, k - 1);
      SafeScanBelow(g, k - 1);
      var q := ScanRoom(k - 1);
      ScanRoomIs(k, q);
      var extra := if IsSafe(At(g, q)) then [q] else [];
      assert SafeScan(g, k) == SafeScan(g, k - 1) + extra;
      AppendOrdered(SafeScan(g, k - 1), extra, k - 1);
    }
  }

  /** The first k slots list only rooms of scan index below k. */
  lemma SafeScanBelow(g: Grid, k: nat)
    requires k <= SlotCount
    ensures forall i :: 0 <= i < |SafeScan(g, k)| ==> ScanIndex(SafeScan(g, k)[i]) < k
  {
    var s := SafeScan(g, k);
    forall i | 0 <= i < |s| ensures ScanIndex(s[i]) < k {
      SafeScanMembers(g, k, s[i]);
    }
  }

  lemma AppendOrdered(prev: seq<Coord>, extra: seq<Coord>, bound: int)
    requires InScanOrder(prev) && |extra| <= 1
    requires forall i :: 0 <= i < |prev| ==> ScanIndex(prev[i]) < bound
    requires forall i :: 0 <= i < |extra| ==> ScanIndex(extra[i]) == bound
    ensures InScanOrder(prev + extra)
  {
    var s := prev + extra;
    forall i, j | 0 <= i < j < |s| ensures ScanIndex(s[i]) < ScanIndex(s[j]) {
      assert s[i] == prev[i];
      if j < |prev| {
        assert s[j] == prev[j];
      } else {
        assert s[j] == extra[j - |prev|];
      }
    }
  }

  /** `safe_cells` lists exactly the rooms believed safe, in scan order. */
  lemma SafeCellsExact(kb: KB, p: Coord)
    ensures p in SafeCells(kb) <==> Canonical(p) && IsSafe(At(kb.world, p))
    ensures InScanOrder(SafeCells(kb))
  {
    SafeScanOrdered(kb.world, SlotCount);
    SafeScanMembers(kb.world, SlotCount, p);
    if Canonical(p) {
      ScanRoomFacts(0, p);
    }
  }

  /** `wumpus_cells` and `pit_cells` list exactly the rooms whose hazard is TRUE or MAYBE,
      each tagged with that value. */
  lemma HazardCellsExact(kb: KB, p: Coord, v: CellValue)
    ensures (p, v) in WumpusCells(kb) <==> Canonical(p) && v in {True, Maybe} && At(kb.world, p).wumpus == v
    ensures (p, v) in PitCells(kb) <==> Canonical(p) && v in {True, Maybe} && At(kb.world, p).pit == v
  {
    HazardScanMembers(kb.world, WumpusHazard, SlotCount, p, v);
    HazardScanMembers(kb.world, PitHazard, SlotCount, p, v);
    if Canonical(p) {
      ScanRoomFacts(0, p);
    }
  }

  /** The scan as written: `world[(i, j)]` for i, j in 0..21, which indexes
      `cells[i + 11][j + 11]`. Returns the cells read from position k on, in order. */
  function ScanAsWritten(g: Grid, k: nat): Result<seq<Cell>>
    requires k <= SlotCount
    decreases SlotCount - k
  {
    if k == SlotCount then Ok([])
    else
      match Get(g, (k / Size, k % Size))
      case Err(e) => Err(e)
      case Ok(c) =>
        match ScanAsWritten(g, k + 1)
        case Err(e) => Err(e)
        case Ok(rest) => Ok([c] + rest)
  }

  /** Whatever the grid holds, the written scan raises IndexError on its twelfth read,
      `cells[11][22]`, so none of the three queries ever returns. */
  lemma {:induction false} ScanAsWrittenRaises(g: Grid, k: nat)
    requires k <= Offset
    decreases Offset - k
    ensures ScanAsWritten(g, k) == Err(IndexError)
  {
    if k < Offset {
      ScanAsWrittenRaises(g, k + 1);
    } else {
      assert Get(g, (0, 11)).Err?;
    }
  }
}

=== FILE: set_item_rules.dfy ===
/** What one `set_item` call does to a room's neighbours (lib/knowledge_base/world_view.py),
    stated rule by rule for a room whose four neighbours all lie in the grid. */
module SetItemRules {
  import opened Basics
  import opened Cells
  import opened WorldViews

  /** The room and its four neighbours can all be indexed. */
  predicate Ready(p: Coord) {
    InWindow(p) && NeighboursInWindow(p)
  }

  /** The attribute whose TRUE value hints at a hazard in a neighbour. */
  function Hint(h: Hazard): Attr {
    if h == WumpusHazard then Stench else Breeze
  }

  /** A whole pass over the four neighbours, summarised. */
  lemma PassSummary(g: Grid, p: Coord, rule: Rule, keys: set<Coord>)
    requires Ready(p)
    ensures var r := Pass(g, p, rule, 0, keys);
      && r.result == Ok(keys + Recorded(g, p, rule, 0))
      && At(r.state, p) == At(g, p)
      && (forall i :: 0 <= i < 4 ==> At(r.state, Neighbour(p, i)) == Apply(rule, At(g, Neighbour(p, i))).0)
      && SameOutside(g, r.state, p, 0)
  {
    PassRecords(g, p, rule, 0, keys);
    PassCells(g, p, rule, 0, keys);
    PassFrame(g, p, rule, 0, keys);
    forall i | 0 <= i < 4 ensures SlotOf(Neighbour(p, i)) != SlotOf(p) {
      NeighbourSlotsDistinct(p, i, i);
    }
    assert !NeighbourSlot(p, 0, SlotOf(p));
  }

  /** Writing the room itself leaves its neighbours as they were. */
  lemma WriteKeepsNeighbours(g: Grid, p: Coord, c: Cell)
    requires Ready(p)
    ensures forall i :: 0 <= i < 4 ==> At(Put(g, p, c), Neighbour(p, i)) == At(g, Neighbour(p, i))
    ensures RuledOut(Put(g, p, c), p, WumpusHazard) == RuledOut(g, p, WumpusHazard)
    ensures RuledOut(Put(g, p, c), p, PitHazard) == RuledOut(g, p, PitHazard)
  {
    forall i | 0 <= i < 4 ensures At(Put(g, p, c), Neighbour(p, i)) == At(g, Neighbour(p, i)) {
      NeighbourSlotsDistinct(p, i, i);
    }
  }

  /** Whether the `match` part of `set_item` runs a neighbour pass for this write. */
  predicate Fires(attr: Attr, v: CellValue) {
    (attr == Stench && v in {True, False}) || (attr == Breeze && v == True)
  }

  lemma SuspectThenPromoteFails(g: Grid, p: Coord, h: Hazard, keys: set<Coord>)
    ensures SuspectThenPromote(g, p, h, keys).result.Ok? <==> NeighboursInWindow(p)
    ensures SuspectThenPromote(g, p, h, keys).result.Err? ==> SuspectThenPromote(g, p, h, keys).result.error == IndexError
  {
    PassFails(g, p, Suspect(h), 0, keys);
    var s := Pass(g, p, Suspect(h), 0, keys);
    if s.result.Ok? {
      PassFails(s.state, p, Promote(h), 0, s.result.value);
    }
  }

  lemma PropagateFails(g: Grid, p: Coord, attr: Attr, v: CellValue, keys: set<Coord>)
    ensures Propagate(g, p, attr, v, keys).result.Ok? <==> (Fires(attr, v) ==> NeighboursInWindow(p))
    ensures Propagate(g, p, attr, v, keys).result.Err? ==> Propagate(g, p, attr, v, keys).result.error == IndexError
  {
    if attr == Stench && v == True {
      SuspectThenPromoteFails(g, p, WumpusHazard, keys);
    } else if attr == Stench && v == False {
      PassFails(g, p, Clear(WumpusHazard), 0, keys);
    } else if attr == Breeze && v == True {
      SuspectThenPromoteFails(g, p, PitHazard, keys);
    }
  }

  lemma AfterWriteFails(g: Grid, p: Coord, attr: Attr, v: CellValue, empty: bool)
    ensures AfterWrite(g, p, attr, v, empty).result.Ok? <==> ((empty || Fires(attr, v)) ==> NeighboursInWindow(p))
    ensures AfterWrite(g, p, attr, v, empty).result.Err? ==> AfterWrite(g, p, attr, v, empty).result.error == IndexError
  {
    var e := EmptyRule(g, p, empty);
    if empty {
      PassFails(g, p, MarkSafe, 0, {});
    }
    if e.result.Ok? {
      PropagateFails(e.state, p, attr, v, e.result.value);
    }
  }

  /** `set_item` fails with TypeError on a value that is not a CellValue, with IndexError when
      the room or, if any rule fires, one of its neighbours lies outside the grid, and
      succeeds otherwise. */
  lemma SetItemFails(g: Grid, p: Coord, attr: Attr, value: Value)
    ensures value.NotCellValue? ==> SetItem(g, p, attr, value) == Step(g, Err(TypeError))
    ensures value.Val? && !InWindow(p) ==> SetItem(g, p, attr, value) == Step(g, Err(IndexError))
    ensures value.Val? && InWindow(p) ==>
      (SetItem(g, p, attr, value).result.Ok? <==>
        (Propagates(At(g, p), attr, value.v) ==> NeighboursInWindow(p)))
    ensures SetItem(g, p, attr, value).result.Err? ==>
      SetItem(g, p, attr, value).result.error in {TypeError, IndexError}
    ensures value.Val? && SetItem(g, p, attr, value).result.Err? ==>
      SetItem(g, p, attr, value).result.error == IndexError
  {
    if value.Val? && InWindow(p) {
      var v := value.v;
      var c := SetAttr(At(g, p), attr, v);
      assert SetItem(g, p, attr, value) == AfterWrite(Put(g, p, c), p, attr, v, IsEmpty(c));
      AfterWriteFails(Put(g, p, c), p, attr, v, IsEmpty(c));
    }
  }

  /** A write that makes the room empty and fires no hazard rule touches nothing else. */
  lemma QuietWrite(g: Grid, p: Coord, attr: Attr, v: CellValue)
    requires InWindow(p) && !Propagates(At(g, p), attr, v)
    ensures SetItem(g, p, attr, Val(v)) == Step(Put(g, p, SetAttr(At(g, p), attr, v)), Ok({}))
  {
  }

  /** The hint rule (stench TRUE for the wumpus, breeze TRUE for the pit): every neighbour
      still UNKNOWN becomes MAYBE, neighbours already decided keep their value, and when
      exactly three neighbours were ruled out the remaining candidate becomes TRUE, which in
      turn rules out the other hazard and gold there. */
  lemma HintRule(g: Grid, p: Coord, h: Hazard)
    requires Ready(p)
    ensures var r := SetItem(g, p, Hint(h), Val(True));
      && r.result.Ok?
      && At(r.state, p) == SetAttr(At(g, p), Hint(h), True)
      && forall i :: 0 <= i < 4 ==> HintedNeighbour(At(g, Neighbour(p, i)), At(r.state, Neighbour(p, i)), h, RuledOut(g, p, h) == 3)
  {
    var c := SetAttr(At(g, p), Hint(h), True);
    var g1 := Put(g, p, c);
    assert SetItem(g, p, Hint(h), Val(True)) == SuspectThenPromote(g1, p, h, {});
    WriteKeepsNeighbours(g, p, c);
    PassSummary(g1, p, Suspect(h), {});
    var s := Pass(g1, p, Suspect(h), 0, {});
    var r := SuspectThenPromote(g1, p, h, {});
    if RuledOut(g, p, h) == 3 {
      PassSummary(s.state, p, Promote(h), s.result.value);
      assert r == Pass(s.state, p, Promote(h), 0, s.result.value);
      forall i | 0 <= i < 4
        ensures HintedNeighbour(At(g, Neighbour(p, i)), At(r.state, Neighbour(p, i)), h, true)
      {
        HintCell(At(g, Neighbour(p, i)), h);
      }
    } else {
      assert r == s;
      forall i | 0 <= i < 4
        ensures HintedNeighbour(At(g, Neighbour(p, i)), At(r.state, Neighbour(p, i)), h, false)
      {
        HintCell(At(g, Neighbour(p, i)), h);
      }
    }
  }

  /** How the hint rule leaves one neighbour, `before` and `after` the call: an UNKNOWN or
      MAYBE hazard becomes MAYBE, or TRUE when `sole` (three other neighbours ruled out),
      through the hazard's own setter, so a newly confirmed hazard also rules out the other
      one and gold; a decided neighbour is left exactly as it was. */
  predicate HintedNeighbour(before: Cell, after: Cell, h: Hazard, sole: bool) {
    after == if HazardOf(before, h) in {Unknown, Maybe} then SetHazard(before, h, if sole then True else Maybe)
             else before
  }

  lemma HintCell(before: Cell, h: Hazard)
    ensures HintedNeighbour(before, Apply(Suspect(h), before).0, h, false)
    ensures HintedNeighbour(before, Apply(Promote(h), Apply(Suspect(h), before).0).0, h, true)
  {
  }

  /** The other hazard. */
  function Other(h: Hazard): Hazard {
    if h == WumpusHazard then PitHazard else WumpusHazard
  }

  /** The sole-candidate rule: with three neighbours ruled out, exactly one neighbour is
      left, and the hint confirms the hazard there. */
  lemma SoleCandidate(g: Grid, p: Coord, h: Hazard)
    requires Ready(p) && RuledOut(g, p, h) == 3
    ensures exists j :: 0 <= j < 4 && HazardOf(At(g, Neighbour(p, j)), h) != False
    ensures forall i, j :: 0 <= i < 4 && 0 <= j < 4 && i != j && HazardOf(At(g, Neighbour(p, i)), h) != False
              ==> HazardOf(At(g, Neighbour(p, j)), h) == False
    ensures var r := SetItem(g, p, Hint(h), Val(True));
      forall j :: 0 <= j < 4 && HazardOf(At(g, Neighbour(p, j)), h) in {Unknown, Maybe} ==>
        var after := At(r.state, Neighbour(p, j));
        HazardOf(after, h) == True && HazardOf(after, Other(h)) == False && after.gold == False
  {
    HintRule(g, p, h);
    var n0 := HazardOf(At(g, Neighbour(p, 0)), h);
    if n0 != False {
      assert 0 <= 0 < 4 && HazardOf(At(g, Neighbour(p, 0)), h) != False;
    } else {
      var n1 := HazardOf(At(g, Neighbour(p, 1)), h);
      if n1 != False {
        assert 0 <= 1 < 4 && HazardOf(At(g, Neighbour(p, 1)), h) != False;
      } else {
        var n2 := HazardOf(At(g, Neighbour(p, 2)), h);
        if n2 != False {
          assert 0 <= 2 < 4 && HazardOf(At(g, Neighbour(p, 2)), h) != False;
        } else {
          assert 0 <= 3 < 4 && HazardOf(At(g, Neighbour(p, 3)), h) != False;
        }
      }
    }
  }

  /** The empty-room pass, neighbour by neighbour. */
  lemma EmptyRuleCells(g: Grid, p: Coord, empty: bool)
    requires Ready(p)
    ensures var e := EmptyRule(g, p, empty);
      && e.result == Ok(if empty then Neighbours(p) else {})
      && At(e.state, p) == At(g, p)
      && forall i :: 0 <= i < 4 ==>
           At(e.state, Neighbour(p, i)) == (if empty then SetSafe(At(g, Neighbour(p, i)), true) else At(g, Neighbour(p, i)))
  {
    if empty {
      PassSummary(g, p, MarkSafe, {});
      assert Recorded(g, p, MarkSafe, 0) == Neighbours(p);
      assert {} + Neighbours(p) == Neighbours(p);
    }
  }

  /** The stench-FALSE pass, neighbour by neighbour. */
  lemma ClearCells(g: Grid, p: Coord, keys: set<Coord>)
    requires Ready(p)
    ensures var r := Pass(g, p, Clear(WumpusHazard), 0, keys);
      && r.result.Ok? && keys <= r.result.value <= keys + Neighbours(p)
      && At(r.state, p) == At(g, p)
      && forall i :: 0 <= i < 4 ==> At(r.state, Neighbour(p, i)) == ClearWumpus(At(g, Neighbour(p, i)))
  {
    PassSummary(g, p, Clear(WumpusHazard), keys);
  }

  /** Clearing the wumpus of a room already marked safe changes nothing. */
  lemma ClearSafe(c: Cell)
    ensures ClearWumpus(SetSafe(c, true)) == SetSafe(c, true)
  {
  }

  /** One neighbour under the stench-FALSE rule. */
  function ClearWumpus(c: Cell): (r: Cell)
    ensures r.pit == c.pit && r.gold == c.gold && r.stench == c.stench && r.breeze == c.breeze
    ensures r.wumpus == if c.wumpus in {Unknown, Maybe} then False else c.wumpus
  {
    Apply(Clear(WumpusHazard), c).0
  }

  /** No stench: the room records stench FALSE, and every neighbour whose wumpus is UNKNOWN
      or MAYBE becomes FALSE; a TRUE neighbour stays TRUE unless the room is now empty
      (breeze already FALSE), in which case the empty-room rule marks every neighbour safe
      first. Nothing else about a neighbour changes: its gold and percepts are kept, and so is
      its pit unless the empty-room rule cleared it. */
  lemma NoStenchRule(g: Grid, p: Coord)
    requires Ready(p)
    ensures var r := SetItem(g, p, Stench, Val(False));
      && r.result.Ok?
      && At(r.state, p) == At(g, p).(stench := False)
      && forall i :: 0 <= i < 4 ==>
           var before := At(g, Neighbour(p, i));
           var after := At(r.state, Neighbour(p, i));
           && after.wumpus == (if At(g, p).breeze == False || before.wumpus in {Unknown, Maybe} then False else before.wumpus)
           && after == (if At(g, p).breeze == False then SetSafe(before, true) else ClearWumpus(before))
  {
    var c := SetAttr(At(g, p), Stench, False);
    var g1 := Put(g, p, c);
    WriteKeepsNeighbours(g, p, c);
    EmptyRuleCells(g1, p, IsEmpty(c));
    var e := EmptyRule(g1, p, IsEmpty(c));
    ClearCells(e.state, p, e.result.value);
    var r := Pass(e.state, p, Clear(WumpusHazard), 0, e.result.value);
    assert SetItem(g, p, Stench, Val(False)) == AfterWrite(g1, p, Stench, False, IsEmpty(c)) == r;
    forall i | 0 <= i < 4
      ensures At(r.state, Neighbour(p, i)) ==
        (if At(g, p).breeze == False then SetSafe(At(g, Neighbour(p, i)), true) else ClearWumpus(At(g, Neighbour(p, i))))
    {
      ClearSafe(At(g, Neighbour(p, i)));
    }
  }

  /** The empty-room rule: when the written room ends with neither stench nor breeze, all
      four neighbours end safe, whatever they held before, and all four are reported. */
  lemma EmptyRoomRule(g: Grid, p: Coord, attr: Attr, v: CellValue)
    requires Ready(p) && IsEmpty(SetAttr(At(g, p), attr, v))
    ensures var r := SetItem(g, p, attr, Val(v));
      && r.result == Ok(Neighbours(p))
      && forall i :: 0 <= i < 4 ==> IsSafe(At(r.state, Neighbour(p, i)))
  {
    var g1 := Put(g, p, SetAttr(At(g, p), attr, v));
    assert SetItem(g, p, attr, Val(v)) == AfterWrite(g1, p, attr, v, true);
    EmptyAfterWrite(g1, p, attr, v);
  }

  lemma EmptyAfterWrite(g: Grid, p: Coord, attr: Attr, v: CellValue)
    requires Ready(p) && (attr == Stench ==> v == False) && (attr == Breeze ==> v != True)
    ensures var r := AfterWrite(g, p, attr, v, true);
      && r.result == Ok(Neighbours(p))
      && forall i :: 0 <= i < 4 ==> IsSafe(At(r.state, Neighbour(p, i)))
  {
    EmptyRuleCells(g, p, true);
    var e := EmptyRule(g, p, true);
    if attr == Stench {
      var r := Pass(e.state, p, Clear(WumpusHazard), 0, e.result.value);
      ClearCells(e.state, p, e.result.value);
      Squeezed(r.result.value, Neighbours(p));
      assert AfterWrite(g, p, attr, v, true) == r;
    } else {
      assert AfterWrite(g, p, attr, v, true) == e;
    }
  }

  lemma Squeezed<T>(b: set<T>, a: set<T>)
    requires a <= b <= a + a
    ensures b == a
  {
  }

  /** `h` differs from `g` at most in the four neighbours of `p`, and not in their percepts. */
  predicate Touches(g: Grid, h: Grid, p: Coord)
    requires Ready(p)
  {
    && At(h, p) == At(g, p)
    && SameOutside(g, h, p, 0)
    && forall i :: 0 <= i < 4 ==>
         At(h, Neighbour(p, i)).stench == At(g, Neighbour(p, i)).stench
         && At(h, Neighbour(p, i)).breeze == At(g, Neighbour(p, i)).breeze
  }

  lemma TouchesTrans(g: Grid, h: Grid, k: Grid, p: Coord)
    requires Ready(p) && Touches(g, h, p) && Touches(h, k, p)
    ensures Touches(g, k, p)
  {
  }

  /** A completed pass only touches the neighbours, and reports only neighbours. */
  lemma PassTouches(g: Grid, p: Coord, rule: Rule, keys: set<Coord>)
    requires Ready(p)
    ensures var r := Pass(g, p, rule, 0, keys);
      r.result.Ok? && r.result.value <= keys + Neighbours(p) && Touches(g, r.state, p)
  {
    PassSummary(g, p, rule, keys);
    var r := Pass(g, p, rule, 0, keys);
    forall i | 0 <= i < 4
      ensures At(r.state, Neighbour(p, i)).stench == At(g, Neighbour(p, i)).stench
      ensures At(r.state, Neighbour(p, i)).breeze == At(g, Neighbour(p, i)).breeze
    {
      ApplyKeepsPercepts(rule, At(g, Neighbour(p, i)));
    }
  }

  lemma ApplyKeepsPercepts(rule: Rule, c: Cell)
    ensures Apply(rule, c).0.stench == c.stench && Apply(rule, c).0.breeze == c.breeze
  {
  }

  lemma PropagateTouches(g: Grid, p: Coord, attr: Attr, v: CellValue, keys: set<Coord>)
    requires Ready(p)
    ensures var r := Propagate(g, p, attr, v, keys);
      r.result.Ok? && r.result.value <= keys + Neighbours(p) && Touches(g, r.state, p)
  {
    if (attr == Stench || attr == Breeze) && v == True {
      var h := if attr == Stench then WumpusHazard else PitHazard;
      assert Propagate(g, p, attr, v, keys) == SuspectThenPromote(g, p, h, keys);
      PassTouches(g, p, Suspect(h), keys);
      var s := Pass(g, p, Suspect(h), 0, keys);
      if RuledOut(g, p, h) == 3 {
        PassTouches(s.state, p, Promote(h), s.result.value);
        TouchesTrans(g, s.state, Pass(s.state, p, Promote(h), 0, s.result.value).state, p);
      }
    } else if attr == Stench && v == False {
      PassTouches(g, p, Clear(WumpusHazard), keys);
    }
  }

  /** Whatever is written, the room itself ends as the setter leaves it, only the four
      neighbours can change besides, only neighbours are reported, and no neighbour's
      stench or breeze is touched. */
  lemma SetItemFrame(g: Grid, p: Coord, attr: Attr, v: CellValue)
    requires Ready(p)
    ensures var r := SetItem(g, p, attr, Val(v));
      && r.result.Ok?
      && r.result.value <= Neighbours(p)
      && At(r.state, p) == SetAttr(At(g, p), attr, v)
      && (forall a, b :: 0 <= a < Size && 0 <= b < Size && (a, b) != SlotOf(p) && !NeighbourSlot(p, 0, (a, b))
            ==> r.state[a][b] == g[a][b])
      && (forall i :: 0 <= i < 4 ==>
            At(r.state, Neighbour(p, i)).stench == At(g, Neighbour(p, i)).stench
            && At(r.state, Neighbour(p, i)).breeze == At(g, Neighbour(p, i)).breeze)
  {
    var c := SetAttr(At(g, p), attr, v);
    var g1 := Put(g, p, c);
    WriteKeepsNeighbours(g, p, c);
    assert SetItem(g, p, attr, Val(v)) == AfterWrite(g1, p, attr, v, IsEmpty(c));
    var e := EmptyRule(g1, p, IsEmpty(c));
    if IsEmpty(c) {
      PassTouches(g1, p, MarkSafe, {});
    }
    assert e.result.Ok? && e.result.value <= Neighbours(p) && Touches(g1, e.state, p);
    PropagateTouches(e.state, p, attr, v, e.result.value);
    var r := Propagate(e.state, p, attr, v, e.result.value);
    TouchesTrans(g1, e.state, r.state, p);
    assert SetItem(g, p, attr, Val(v)) == r;
  }

  /** Every cell of the grid is consistent (never both hazards confirmed). */
  predicate AllConsistent(g: Grid) {
    forall a, b :: 0 <= a < Size && 0 <= b < Size ==> Consistent(g[a][b])
  }

  lemma {:induction false} PassKeepsConsistent(g: Grid, p: Coord, rule: Rule, k: nat, keys: set<Coord>)
    requires k <= 4 && AllConsistent(g)
    decreases 4 - k
    ensures AllConsistent(Pass(g, p, rule, k, keys).state)
  {
    if k < 4 && InWindow(Neighbour(p, k)) {
      var n := Neighbour(p, k);
      var step := Apply(rule, At(g, n));
      var g1 := Put(g, n, step.0);
      assert Consistent(step.0);
      assert AllConsistent(g1);
      PassKeepsConsistent(g1, p, rule, k + 1, if step.1 then keys + {n} else keys);
    }
  }

  /** `set_item` never confirms both hazards in one room, even when it stops half-way with
      IndexError. */
  lemma SetItemKeepsConsistent(g: Grid, p: Coord, attr: Attr, value: Value)
    requires AllConsistent(g)
    ensures AllConsistent(SetItem(g, p, attr, value).state)
  {
    if value.Val? && InWindow(p) {
      var v := value.v;
      var c := SetAttr(At(g, p), attr, v);
      var g1 := Put(g, p, c);
      assert AllConsistent(g1);
      assert SetItem(g, p, attr, value) == AfterWrite(g1, p, attr, v, IsEmpty(c));
      PassKeepsConsistent(g1, p, MarkSafe, 0, {});
      var e := EmptyRule(g1, p, IsEmpty(c));
      if e.result.Ok? {
        PropagateKeepsConsistent(e.state, p, attr, v, e.result.value);
      }
    }
  }

  lemma PropagateKeepsConsistent(g: Grid, p: Coord, attr: Attr, v: CellValue, keys: set<Coord>)
    requires AllConsistent(g)
    ensures AllConsistent(Propagate(g, p, attr, v, keys).state)
  {
    PassKeepsConsistent(g, p, Clear(WumpusHazard), 0, keys);
    forall h: Hazard ensures AllConsistent(SuspectThenPromote(g, p, h, keys).state) {
      PassKeepsConsistent(g, p, Suspect(h), 0, keys);
      var s := Pass(g, p, Suspect(h), 0, keys);
      if s.result.Ok? {
        PassKeepsConsistent(s.state, p, Promote(h), 0, s.result.value);
      }
    }
  }
}

=== FILE: world_view.dfy ===
/** The belief grid (lib/knowledge_base/world_view.py): a 22 x 22 list of lists of cells,
    addressed by signed room coordinates shifted by 11. Indexing follows Python's list rule,
    so coordinates -33..-12 wrap around to the far end of the list and anything beyond
    -33..10 raises IndexError. */
module WorldViews {
  import opened Basics
  import opened Cells

  const Size: nat := 22
  const Offset: int := 11

  type Grid = g: seq<seq<Cell>> | |g| == Size && forall a :: 0 <= a < |g| ==> |g[a]| == Size
    witness seq(Size, _ => seq(Size, _ => Fresh))

  /** `WorldView()`: every cell fresh. */
  function NewWorld(): (g: Grid)
    ensures forall a, b :: 0 <= a < Size && 0 <= b < Size ==> g[a][b] == Fresh
  {
    seq(Size, _ => seq(Size, _ => Fresh))
  }

  /** The list index that coordinate `c` lands on, if any. */
  function Slot(c: int): Option<nat> {
    PyIndex(c + Offset, Size)
  }

  predicate InWindow(p: Coord) {
    Slot(p.0).Some? && Slot(p.1).Some?
  }

  /** The (row, column) slot a room in the window is stored at. */
  function SlotOf(p: Coord): (s: (nat, nat))
    requires InWindow(p)
    ensures s.0 < Size && s.1 < Size
    ensures s.0 == if p.0 >= -11 then p.0 + 11 else p.0 + 33
    ensures s.1 == if p.1 >= -11 then p.1 + 11 else p.1 + 33
  {
    (Slot(p.0).value, Slot(p.1).value)
  }

  /** The coordinates -11..10 name each slot exactly once. */
  predicate Canonical(p: Coord) {
    -11 <= p.0 <= 10 && -11 <= p.1 <= 10
  }

  lemma CanonicalSlots(p: Coord, q: Coord)
    requires Canonical(p) && Canonical(q)
    ensures InWindow(p) && InWindow(q)
    ensures SlotOf(p) == SlotOf(q) <==> p == q
    ensures SlotOf(p) == (p.0 + 11, p.1 + 11)
  {
  }

  /** `world[(x, y)]`. */
  function Get(g: Grid, p: Coord): (r: Result<Cell>)
    ensures r.Ok? <==> InWindow(p)
    ensures r.Ok? ==> r.value == g[SlotOf(p).0][SlotOf(p).1]
  {
    if InWindow(p) then Ok(g[Slot(p.0).value][Slot(p.1).value]) else Err(IndexError)
  }

  function At(g: Grid, p: Coord): Cell
    requires InWindow(p)
  {
    g[SlotOf(p).0][SlotOf(p).1]
  }

  function Put(g: Grid, p: Coord, c: Cell): (r: Grid)
    requires InWindow(p)
    ensures At(r, p) == c
    ensures forall a, b :: 0 <= a < Size && 0 <= b < Size && (a, b) != SlotOf(p) ==> r[a][b] == g[a][b]
  {
    var (a, b) := SlotOf(p);
    g[a := g[a][b := c]]
  }

  /** The four neighbours in the order the source visits them (`kx`, `ky`). */
  function Neighbour(p: Coord, i: nat): Coord
    requires i < 4
  {
    if i == 0 then (p.0 + 1, p.1)
    else if i == 1 then (p.0 - 1, p.1)
    else if i == 2 then (p.0, p.1 + 1)
    else (p.0, p.1 - 1)
  }

  function Neighbours(p: Coord): set<Coord> {
    {(p.0 + 1, p.1), (p.0 - 1, p.1), (p.0, p.1 + 1), (p.0, p.1 - 1)}
  }

  predicate NeighboursInWindow(p: Coord) {
    forall i :: 0 <= i < 4 ==> InWindow(Neighbour(p, i))
  }

  /** In the window, a room and its four neighbours occupy five different slots, even where
      the coordinates wrap. */
  lemma NeighbourSlotsDistinct(p: Coord, i: nat, j: nat)
    requires InWindow(p) && i < 4 && j < 4 && InWindow(Neighbour(p, i)) && InWindow(Neighbour(p, j))
    ensures SlotOf(Neighbour(p, i)) != SlotOf(p)
    ensures i != j ==> SlotOf(Neighbour(p, i)) != SlotOf(Neighbour(p, j))
  {
  }

  datatype Hazard = WumpusHazard | PitHazard

  function HazardOf(c: Cell, h: Hazard): CellValue {
    if h == WumpusHazard then c.wumpus else c.pit
  }

  function SetHazard(c: Cell, h: Hazard, v: CellValue): (r: Cell)
    ensures HazardOf(r, h) == v
    ensures r.stench == c.stench && r.breeze == c.breeze
  {
    if h == WumpusHazard then SetWumpus(c, v) else SetPit(c, v)
  }

  /** What one neighbour pass does to each neighbour. */
  datatype Rule =
    | MarkSafe           // the written room is empty
    | Suspect(h: Hazard) // UNKNOWN becomes MAYBE
    | Promote(h: Hazard) // MAYBE becomes TRUE
    | Clear(h: Hazard)   // UNKNOWN or MAYBE becomes FALSE

  /** The neighbour after the rule, and whether the source records it in the returned map. */
  function Apply(rule: Rule, c: Cell): (Cell, bool) {
    match rule
    case MarkSafe => (SetSafe(c, true), true)
    case Suspect(h) =>
      if HazardOf(c, h) == Unknown then (SetHazard(c, h, Maybe), true) else (c, false)
    case Promote(h) =>
      if HazardOf(c, h) == Maybe then (SetHazard(c, h, True), true) else (c, false)
    case Clear(h) =>
      if HazardOf(c, h) in {Unknown, Maybe} then (SetHazard(c, h, False), true) else (c, false)
  }

  /** One `for i in range(4)` loop over the neighbours of `p`, from neighbour `k` on. A
      neighbour outside the list stops the loop with IndexError; the neighbours before it
      have already been written. */
  function Pass(g: Grid, p: Coord, rule: Rule, k: nat, keys: set<Coord>): Step<Grid, set<Coord>>
    requires k <= 4
    decreases 4 - k
  {
    if k == 4 then Step(g, Ok(keys))
    else
      var n := Neighbour(p, k);
      if !InWindow(n) then Step(g, Err(IndexError))
      else
        var (c, recorded) := Apply(rule, At(g, n));
        Pass(Put(g, n, c), p, rule, k + 1, if recorded then keys + {n} else keys)
  }

  /** Slot `s` holds neighbour `i` of `p` for some `i` from `k` on. */
  predicate NeighbourSlot(p: Coord, k: nat, s: (nat, nat)) {
    exists i :: k <= i < 4 && InWindow(Neighbour(p, i)) && SlotOf(Neighbour(p, i)) == s
  }

  /** `h` agrees with `g` outside the slots of neighbours `k..3` of `p`. */
  predicate SameOutside(g: Grid, h: Grid, p: Coord, k: nat) {
    forall a, b :: 0 <= a < Size && 0 <= b < Size && !NeighbourSlot(p, k, (a, b)) ==> h[a][b] == g[a][b]
  }

  /** The neighbours from `k` on that the rule records. */
  function Recorded(g: Grid, p: Coord, rule: Rule, k: nat): (r: set<Coord>)
    requires k <= 4
    requires forall i :: k <= i < 4 ==> InWindow(Neighbour(p, i))
    decreases 4 - k
    ensures r <= Neighbours(p)
  {
    if k == 4 then {}
    else
      (if Apply(rule, At(g, Neighbour(p, k))).1 then {Neighbour(p, k)} else {})
      + Recorded(g, p, rule, k + 1)
  }

  /** What a pass records depends only on the neighbours it visits. */
  lemma {:induction false} RecordedReadsNeighbours(g: Grid, h: Grid, p: Coord, rule: Rule, k: nat)
    requires k <= 4
    requires forall i :: k <= i < 4 ==> InWindow(Neighbour(p, i))
    requires forall i :: k <= i < 4 ==> At(g, Neighbour(p, i)) == At(h, Neighbour(p, i))
    decreases 4 - k
    ensures Recorded(g, p, rule, k) == Recorded(h, p, rule, k)
  {
    if k < 4 {
      RecordedReadsNeighbours(g, h, p, rule, k + 1);
    }
  }

  /** A pass fails exactly when one of the neighbours it has still to visit lies outside
      the list. */
  lemma {:induction false} PassFails(g: Grid, p: Coord, rule: Rule, k: nat, keys: set<Coord>)
    requires k <= 4
    decreases 4 - k
    ensures Pass(g, p, rule, k, keys).result.Ok? <==> forall i :: k <= i < 4 ==> InWindow(Neighbour(p, i))
    ensures Pass(g, p, rule, k, keys).result.Err? ==> Pass(g, p, rule, k, keys).result.error == IndexError
  {
    if k < 4 && InWindow(Neighbour(p, k)) {
      var n := Neighbour(p, k);
      var (c, recorded) := Apply(rule, At(g, n));
      PassFails(Put(g, n, c), p, rule, k + 1, if recorded then keys + {n} else keys);
    }
  }

  /** Writing neighbour `k` leaves the neighbours after it as they were. */
  lemma LaterNeighboursKept(g: Grid, p: Coord, k: nat, c: Cell)
    requires k < 4 && InWindow(p)
    requires forall i :: k <= i < 4 ==> InWindow(Neighbour(p, i))
    ensures forall i :: k < i < 4 ==> At(Put(g, Neighbour(p, k), c), Neighbour(p, i)) == At(g, Neighbour(p, i))
  {
    forall i | k < i < 4
      ensures At(Put(g, Neighbour(p, k), c), Neighbour(p, i)) == At(g, Neighbour(p, i))
    {
      NeighbourSlotsDistinct(p, k, i);
    }
  }

  /** A completed pass records exactly the neighbours the rule reports. */
  lemma {:induction false} PassRecords(g: Grid, p: Coord, rule: Rule, k: nat, keys: set<Coord>)
    requires k <= 4 && InWindow(p)
    requires forall i :: k <= i < 4 ==> InWindow(Neighbour(p, i))
    decreases 4 - k
    ensures Pass(g, p, rule, k, keys).result == Ok(keys + Recorded(g, p, rule, k))
  {
    if k < 4 {
      var n := Neighbour(p, k);
      var step := Apply(rule, At(g, n));
      var g1 := Put(g, n, step.0);
      var keys1 := if step.1 then keys + {n} else keys;
      PassUnfold(g, p, rule, k, keys);
      PassRecords(g1, p, rule, k + 1, keys1);
      LaterNeighboursKept(g, p, k, step.0);
      RecordedReadsNeighbours(g, g1, p, rule, k + 1);
      RecordedUnfold(g, p, rule, k);
      RecordedKeys(keys, n, step.1, Recorded(g, p, rule, k + 1));
    } else {
      assert keys + {} == keys;
    }
  }

  /** One step of a pass: visit neighbour `k`, then go on from `k + 1`. */
  lemma PassUnfold(g: Grid, p: Coord, rule: Rule, k: nat, keys: set<Coord>)
    requires k < 4 && InWindow(Neighbour(p, k))
    ensures var n := Neighbour(p, k);
      var step := Apply(rule, At(g, n));
      Pass(g, p, rule, k, keys) == Pass(Put(g, n, step.0), p, rule, k + 1, if step.1 then keys + {n} else keys)
  {
  }

  lemma RecordedUnfold(g: Grid, p: Coord, rule: Rule, k: nat)
    requires k < 4
    requires forall i :: k <= i < 4 ==> InWindow(Neighbour(p, i))
    ensures Recorded(g, p, rule, k) ==
      (if Apply(rule, At(g, Neighbour(p, k))).1 then {Neighbour(p, k)} else {}) + Recorded(g, p, rule, k + 1)
  {
  }

  /** The set algebra of one step of `PassRecords`. */
  lemma RecordedKeys(keys: set<Coord>, n: Coord, recorded: bool, later: set<Coord>)
    ensures keys + ((if recorded then {n} else {}) + later) == (if recorded then keys + {n} else keys) + later
  {
  }

  /** A completed pass leaves every slot but those of the visited neighbours alone. */
  lemma {:induction false} PassFrame(g: Grid, p: Coord, rule: Rule, k: nat, keys: set<Coord>)
    requires k <= 4 && InWindow(p)
    requires forall i :: k <= i < 4 ==> InWindow(Neighbour(p, i))
    decreases 4 - k
    ensures SameOutside(g, Pass(g, p, rule, k, keys).state, p, k)
  {
    if k < 4 {
      var n := Neighbour(p, k);
      var (c, recorded) := Apply(rule, At(g, n));
      var g1 := Put(g, n, c);
      var keys1 := if recorded then keys + {n} else keys;
      PassFrame(g1, p, rule, k + 1, keys1);
      var r := Pass(g1, p, rule, k + 1, keys1);
      forall a, b | 0 <= a < Size && 0 <= b < Size && !NeighbourSlot(p, k, (a, b))
        ensures r.state[a][b] == g[a][b]
      {
        assert !NeighbourSlot(p, k + 1, (a, b));
        assert (a, b) != SlotOf(n);
      }
    }
  }

  /** A completed pass leaves each visited neighbour as the rule makes it. */
  lemma {:induction false} PassCells(g: Grid, p: Coord, rule: Rule, k: nat, keys: set<Coord>)
    requires k <= 4 && InWindow(p)
    requires forall i :: k <= i < 4 ==> InWindow(Neighbour(p, i))
    decreases 4 - k
    ensures forall i :: k <= i < 4 ==>
      At(Pass(g, p, rule, k, keys).state, Neighbour(p, i)) == Apply(rule, At(g, Neighbour(p, i))).0
  {
    if k < 4 {
      var n := Neighbour(p, k);
      var (c, recorded) := Apply(rule, At(g, n));
      var g1 := Put(g, n, c);
      var keys1 := if recorded then keys + {n} else keys;
      PassUnfold(g, p, rule, k, keys);
      PassCells(g1, p, rule, k + 1, keys1);
      LaterNeighboursKept(g, p, k, c);
      PassKeepsWritten(g, p, rule, k, c, keys1);
    }
  }

  /** The rest of a pass leaves the neighbour just written alone. */
  lemma PassKeepsWritten(g: Grid, p: Coord, rule: Rule, k: nat, c: Cell, keys: set<Coord>)
    requires k < 4 && InWindow(p)
    requires forall i :: k <= i < 4 ==> InWindow(Neighbour(p, i))
    ensures At(Pass(Put(g, Neighbour(p, k), c), p, rule, k + 1, keys).state, Neighbour(p, k)) == c
  {
    var g1 := Put(g, Neighbour(p, k), c);
    PassFrame(g1, p, rule, k + 1, keys);
    NeighbourNotLater(p, k);
  }

  /** Neighbour `k` does not share a slot with any later neighbour. */
  lemma NeighbourNotLater(p: Coord, k: nat)
    requires k < 4 && InWindow(p)
    requires forall i :: k <= i < 4 ==> InWindow(Neighbour(p, i))
    ensures !NeighbourSlot(p, k + 1, SlotOf(Neighbour(p, k)))
  {
    forall j | k + 1 <= j < 4 ensures SlotOf(Neighbour(p, j)) != SlotOf(Neighbour(p, k)) {
      NeighbourSlotsDistinct(p, k, j);
    }
  }

  /** The number of neighbours already known not to hold the hazard. */
  function RuledOut(g: Grid, p: Coord, h: Hazard): (n: nat)
    requires NeighboursInWindow(p)
    ensures n <= 4
  {
    (if HazardOf(At(g, Neighbour(p, 0)), h) == False then 1 else 0)
    + (if HazardOf(At(g, Neighbour(p, 1)), h) == False then 1 else 0)
    + (if HazardOf(At(g, Neighbour(p, 2)), h) == False then 1 else 0)
    + (if HazardOf(At(g, Neighbour(p, 3)), h) == False then 1 else 0)
  }

  /** The stench-TRUE / breeze-TRUE rule: suspect every unknown neighbour, and when exactly
      three neighbours are ruled out, promote the remaining suspect. */
  function SuspectThenPromote(g: Grid, p: Coord, h: Hazard, keys: set<Coord>): Step<Grid, set<Coord>> {
    var s := Pass(g, p, Suspect(h), 0, keys);
    PassFails(g, p, Suspect(h), 0, keys);
    if s.result.Err? then s
    else if RuledOut(g, p, h) == 3 then Pass(s.state, p, Promote(h), 0, s.result.value)
    else s
  }

  /** The `match (attr, cell)` part of `set_item`. There is no rule for breeze FALSE. */
  function Propagate(g: Grid, p: Coord, attr: Attr, v: CellValue, keys: set<Coord>): Step<Grid, set<Coord>> {
    if attr == Stench && v == True then SuspectThenPromote(g, p, WumpusHazard, keys)
    else if attr == Stench && v == False then Pass(g, p, Clear(WumpusHazard), 0, keys)
    else if attr == Breeze && v == True then SuspectThenPromote(g, p, PitHazard, keys)
    else Step(g, Ok(keys))
  }

  /** The second argument of `set_item`, which is checked to be a CellValue at run time. */
  datatype Value = Val(v: CellValue) | NotCellValue

  /** Whether `set_item` touches the neighbours at all. */
  predicate Propagates(c: Cell, attr: Attr, v: CellValue) {
    IsEmpty(SetAttr(c, attr, v))
    || (attr == Stench && v in {True, False})
    || (attr == Breeze && v == True)
  }

  /** `set_item((x, y, attr), value)`: write one attribute of room `p`, then apply one pass
      of the neighbour rules. Returns the neighbours recorded as changed. */
  function SetItem(g: Grid, p: Coord, attr: Attr, value: Value): Step<Grid, set<Coord>> {
    match value
    case NotCellValue => Step(g, Err(TypeError))
    case Val(v) =>
      if !InWindow(p) then Step(g, Err(IndexError))
      else
        var c := SetAttr(At(g, p), attr, v);
        AfterWrite(Put(g, p, c), p, attr, v, IsEmpty(c))
  }

  /** The rules `set_item` runs once the room itself has been written. */
  function AfterWrite(g: Grid, p: Coord, attr: Attr, v: CellValue, empty: bool): Step<Grid, set<Coord>> {
    var e := EmptyRule(g, p, empty);
    if e.result.Err? then e else Propagate(e.state, p, attr, v, e.result.value)
  }

  /** An empty room proves all four neighbours safe. */
  function EmptyRule(g: Grid, p: Coord, empty: bool): Step<Grid, set<Coord>> {
    if empty then Pass(g, p, MarkSafe, 0, {}) else Step(g, Ok({}))
  }

}
